=== FILE: README.md ===
# Tiled index ranges and composite indexing

This project models the index layer of a block-sparse tensor library. It covers five pieces:

- **Index ranges.** The tiling tree of one tensor axis. A range covers `n` consecutive indices from `start`, and its subranges cut it into tiles, which may themselves be cut further. Ranges can be built flat, from explicit tile sizes, balanced from a tile-size cap, by slicing or grouping existing sibling ranges, and by padding with single-child wrapper levels.
- **Depth queries** on a range: the ranges at a depth, their count (`ntot`), the largest extent (`nmax`), the first start and last finish, the height (`depth`), and whether and at what depth a subrange lies below it.
- **Subindex tuples.** The ordered child collection of a range: slicing it, looking a child up by position, and finding a child's position.
- **Index range tuples.** One range per tensor axis: element access, trimming, axis permutation, minimum and maximum depth, alignment, and the expansion into every combination of ranges at a depth.
- **The composite indexer.** A row-major numbering of tile-position vectors. It supports per-axis offsets, an index map that picks axes out of a longer position vector, and an axis permutation. `index` and `extract` are its two directions.

Design decisions, stated once:

- **Depth.** Depth is counted downward from a range: depth 0 is the range itself. A range without subranges stands for itself at every deeper depth. `depth()` is the height of the tree below the range: 0 for a bottom-level range, otherwise one more than its highest child.
- **Well-formedness (`IndexRanges.Valid`).** Every extent is positive. The subranges of a range lie end to end from its start, with no gaps or overlaps, and their extents add up to its extent. The header's own `finish` example, with subranges 0-3, 6-8 and 9-12, has gaps. `RangeQueries.FinishAt` is defined on such trees too, and `RangeQueries.FinishExample` evaluates the header's example to 13.
- **Counts and starts.** `ntot(depth)` is the number of ranges at that depth. The start and finish at a depth follow the first and last descendant.
- **Ordinals and parent pointers.** A range does not record its ordinal or its parent. A child's ordinal is its position in its parent's subrange sequence, and `SubindexTuples.ChildOrdinal` proves the two agree.
- **Errors.** Constructors and lookups return a `Result`. The error kinds are:
  - malformed partition: zero extent, zero size, no children, siblings that are not end to end, or a zero tile cap;
  - domain violation: a position or composite index out of bounds;
  - misalignment: a padding target that is not deeper than the range, or combinations asked of a tuple whose axes differ in height;
  - shape mismatch: a permutation or index map that does not fit the number of axes.
- **Indexer storage order.** The indexer keeps its tables in storage order. Permuting with `p` makes storage axis `i` the former axis `p[i]`, and the index map still names the caller's position. `cumulsizes` are the row-major strides: for sizes `ni, nj, nk` they are `nj*nk, nk, 1`. The header comment on `cumulsizes_` writes `nj * ni, nj, 1`. That does not fit the row-major numbering that `index` and `extract` implement, so the model follows the numbering.
- **Extraction.** `Indexers.Extract` gives the positions of a composite index in storage order. `Indexers.ExtractInto` is `extract` itself: it writes those positions back into the caller's vector through the index map, so a permuted indexer returns them in the caller's axis order.
- **Indexer from a tuple.** The indexer of a range tuple numbers the tiles one level below each axis, from 0, rather than the indices of the axis from its start ("## Left out" says why).

## Model

| member | source | states |
|---|---|---|
| Tiling.FormSizes | src/lib/libyeti/index.h:112-126 | the tile sizes for n indices at most nper per tile: ceil(n/nper) tiles, summing to n, each in 1..nper, differing by at most one with larger tiles first |
| Tiling.FormSizesUnique | src/lib/libyeti/index.h:112-126 | any balanced size sequence of that length and sum is the one form_sizes produces |
| Tiling.FormSizesThirteenByFive | src/lib/libyeti/index.h:116-118 | 13 indices with at most 5 per tile give 5, 4, 4 (and not 5, 5, 3) |
| Tiling.FormSizesExact | src/lib/libyeti/index.h:112-126 | an extent of m times the cap splits into m tiles of exactly the cap |
| Tiling.FormSizesSmall | src/lib/libyeti/index.h:112-126 | an extent no larger than the cap stays one tile of that extent |
| Tiling.FormSizesExactAndSmall | src/lib/libyeti/index.h:112-126 | the instances 20 at 5 per tile (four tiles of 5) and 7 under a cap of 10 (one tile of 7) |
| IndexRanges.Flat | src/lib/libyeti/index.h:206-215 | a range without subranges over n indices from start; rejected when n is 0 |
| IndexRanges.Tiles | src/lib/libyeti/index.h:106-110 | bottom-level tiles of the given sizes lie end to end, each starting at start plus the sizes before it |
| IndexRanges.TileAt | src/lib/libyeti/index.h:217-226 | tile i of an explicit-sizes range has extent sizes[i], no subranges, and starts at start plus the sizes before it |
| IndexRanges.FromSizes | src/lib/libyeti/index.h:217-226 | subranges of exactly the given sizes, laid end to end, total extent their sum; rejected for no sizes or a zero size |
| IndexRanges.Balanced | src/lib/libyeti/index.h:228-237 | a well-formed range of n indices whose tile extents are form_sizes(n, nper); rejected when n or nper is 0 |
| IndexRanges.FromSubranges | src/lib/libyeti/index.h:135-143 | a range over the given siblings, accepted exactly when they lie end to end from start |
| IndexRanges.Composite | src/lib/libyeti/index.h:145-147 | the same, starting where the first sibling starts |
| IndexRanges.Pad | src/lib/libyeti/index.h:149-155 | one wrapper level whose only child is the range, with the same start and extent |
| IndexRanges.Slice | src/lib/libyeti/index.h:166-180 | a range over siblings start .. start+nslice-1; out of bounds is a domain violation |
| IndexRanges.SliceOneTwo | src/lib/libyeti/index.h:166-170 | start 1 and nslice 2 give the subranges tuple[1], tuple[2] |
| IndexRanges.SliceOfSiblings | src/lib/libyeti/index.h:166-180 | every in-bounds slice of a well-formed range's children is accepted |
| IndexRanges.SliceOfRun | src/lib/libyeti/index.h:166-180 | any in-bounds slice of well-formed siblings lying end to end is accepted |
| IndexRanges.Group | src/lib/libyeti/index.h:182-198 | ceil(len/nper) new subranges, subrange i holding siblings i*nper onward, at most nper each |
| IndexRanges.GroupRegroups | src/lib/libyeti/index.h:182-198 | the groups concatenated in order give back the original siblings |
| IndexRanges.BundlesTile | src/lib/libyeti/index.h:182-198 | wrapping consecutive runs of end-to-end siblings, one new range per run, keeps them well-formed and end to end with the same total extent |
| SeqMath.ChunkAt | src/lib/libyeti/index.h:182-188 | run i holds the siblings from i*nper up to the next multiple of nper or to the end |
| SeqMath.ChunksConcat | src/lib/libyeti/index.h:182-188 | the runs joined in order give back the siblings |
| IndexRanges.GroupEightByThree | src/lib/libyeti/index.h:185-188 | 8 siblings with nper 3 group as 0-2, 3-5, 6-7 |
| IndexRanges.ContiguousStarts | src/lib/libyeti/index.h:88-93 | in a well-formed partition each tile starts where the tiles before it end |
| IndexRanges.TotalNPositive | src/lib/libyeti/index.h:91-93 | the index count of tiles is at least their number |
| RangeQueries.RangesAtTile | src/lib/libyeti/index.h:257 | the ranges at any depth of a well-formed range again tile it end to end |
| RangeQueries.NTot | src/lib/libyeti/index.h:276-280 | at least one and, in a well-formed range, at most n tiles at any depth |
| RangeQueries.NTotOne | src/lib/libyeti/index.h:276-280 | one level down there are as many tiles as subranges, or just the range for a bottom-level range |
| RangeQueries.NMax | src/lib/libyeti/index.h:282-286 | the largest extent at the depth: bounds every tile, is attained, and n <= ntot * nmax |
| RangeQueries.StartAt | src/lib/libyeti/index.h:288-290 | a well-formed range starts at start() at every depth |
| RangeQueries.StartAtFirst | src/lib/libyeti/index.h:288-290 | start(depth) is the start of the first range at that depth |
| RangeQueries.FinishAt | src/lib/libyeti/index.h:292-296 | a well-formed range finishes at start + n at every depth |
| RangeQueries.FinishAtLast | src/lib/libyeti/index.h:292-296 | finish(depth) is the exclusive end of the last range at that depth |
| RangeQueries.FinishExample | src/lib/libyeti/index.h:293-294 | subranges 0-3, 6-8 and 9-12 finish at 13 |
| RangeQueries.DepthOfChildren | src/lib/libyeti/index.h:303 | every child is lower than its parent and some child is exactly one level lower |
| RangeQueries.RangesAtBottom | src/lib/libyeti/index.h:303 | at or below the height every range listed is a bottom-level range |
| RangeQueries.HasSubrangeIffPath | src/lib/libyeti/index.h:259 | has_subrange holds exactly when some path of child positions leads to the range |
| RangeQueries.SubDepthPath | src/lib/libyeti/index.h:260-263 | the reported depth is the length of a path leading to the subrange |
| RangeQueries.SubDepthListed | src/lib/libyeti/index.h:260-263 | the subrange is among the ranges at its reported depth |
| RangeQueries.PadDepth | src/lib/libyeti/index.h:149-155 | one wrapper level adds one to the height and puts the range at depth 1 |
| RangeQueries.Wrap | src/lib/libyeti/index.h:157-164 | k wrapper levels keep start, extent and well-formedness, add k to the height, and put the range at depth k |
| RangeQueries.PadToDepth | src/lib/libyeti/index.h:157-164 | padding reaches exactly the requested height; a height not above the range's own is a misalignment |
| SubindexTuples.Slice | src/lib/libyeti/index.h:599 | children start .. stop-1 in order; rejected unless start <= stop <= size |
| SubindexTuples.Index | src/lib/libyeti/index.h:601-605 | the first position holding the subrange; none exactly when it is absent |
| SubindexTuples.GetSubindex | src/lib/libyeti/index.h:307-311 | child idx when idx is below the number of children, otherwise a domain violation |
| SubindexTuples.FirstChild | src/lib/libyeti/index.h:315 | child 0, present exactly for a parent, starting where the parent starts |
| SubindexTuples.FirstChildFirst | src/lib/libyeti/index.h:311-315 | in a valid parent the first child is get_subindex(0) and starts before every other child |
| SubindexTuples.StartsIncrease | src/lib/libyeti/index.h:95-104 | the children of a well-formed range start at strictly increasing positions |
| SubindexTuples.ChildOrdinal | src/lib/libyeti/index.h:95-99 | a child's position is its ordinal: get_subindex of it returns the child |
| IndexRangeTuples.Uniform | src/lib/libyeti/index.h:387 | size axes, each tiled like the template |
| IndexRangeTuples.Get | src/lib/libyeti/index.h:420 | the range at axis idx; out of bounds is a domain violation |
| IndexRangeTuples.Set | src/lib/libyeti/index.h:418 | a bounds-checked replacement that keeps the number of axes |
| IndexRangeTuples.SetThenGet | src/lib/libyeti/index.h:418-420 | reading a written axis gives the written range; other axes are unchanged |
| IndexRangeTuples.SliceFront | src/lib/libyeti/index.h:412 | the first nindex axes, in order |
| IndexRangeTuples.Permute | src/lib/libyeti/index.h:395-414 | new axis i is old axis p[i]; a p that is not a permutation of the axes is a shape mismatch |
| IndexRangeTuples.PermuteInverse | src/lib/libyeti/index.h:414 | permuting by the inverse restores the tuple |
| IndexRangeTuples.MinDepth | src/lib/libyeti/index.h:406 | the least axis height, attained by some axis |
| IndexRangeTuples.MaxDepth | src/lib/libyeti/index.h:408 | the greatest axis height, attained by some axis |
| IndexRangeTuples.AlignedIffEqualDepths | src/lib/libyeti/index.h:410 | is_aligned holds exactly when all axes have the same height |
| IndexRangeTuples.PaddingAligns | src/lib/libyeti/index.h:157-164 | axes of different heights are misaligned until the lower one is padded to the other's height |
| IndexRangeTuples.PadOnceExample | src/lib/libyeti/index.h:149-155 | a range beside its own padding is misaligned; padding both aligns them |
| IndexRangeTuples.Cartesian | src/lib/libyeti/index.h:375-380 | the depth-first expansion has the product of the list lengths as its count |
| IndexRangeTuples.CartesianAt | src/lib/libyeti/index.h:375-380 | combination c takes from each list the entry at the row-major digit of c |
| IndexRangeTuples.CartesianMember | src/lib/libyeti/index.h:375-380 | the combinations are exactly the sequences with one entry from each list |
| IndexRangeTuples.CartesianSound | src/lib/libyeti/index.h:375-380 | every combination has one entry from each list, in list order |
| IndexRangeTuples.CartesianComplete | src/lib/libyeti/index.h:375-380 | every sequence with one entry from each list is among the combinations |
| IndexRangeTuples.GetIndexTuples | src/lib/libyeti/index.h:401-404 | one combination per tile tuple at the depth: the product of the per-axis tile counts |
| IndexRangeTuples.AlignedIndexTuples | src/lib/libyeti/index.h:401-410 | the combinations at a depth exactly when the tuple is aligned, one per tile tuple; a misaligned tuple is a misalignment |
| IndexRangeTuples.MisalignedRefused | src/lib/libyeti/index.h:401-410 | a range beside its own padding is refused as misaligned; padding both makes the combinations available |
| IndexRangeTuples.IndexTupleAt | src/lib/libyeti/index.h:401-404 | combination c is, axis by axis, the range at the row-major digit of c, first axis slowest |
| IndexRangeTuples.IndexTupleMember | src/lib/libyeti/index.h:401-404 | a tuple is produced exactly when each axis holds a range at that depth of the axis |
| RowMajor.Strides | src/lib/libyeti/index.h:465-467 | one cumulative size per axis |
| RowMajor.StridesAreProducts | src/lib/libyeti/index.h:465-467 | the stride of axis k is the product of the sizes of the axes after it, so the last stride is 1 |
| RowMajor.StridesOfThree | src/lib/libyeti/index.h:465-466 | for sizes ni, nj, nk the strides are nj*nk, nk, 1 |
| RowMajor.FlattenBound | src/lib/libyeti/index.h:462-463 | every in-range position vector numbers below the number of sets |
| RowMajor.FlattenUnflatten | src/lib/libyeti/index.h:566-572 | successive division recovers an in-range vector with the given number |
| RowMajor.UnflattenFlatten | src/lib/libyeti/index.h:558-572 | division undoes the row-major numbering |
| RowMajor.FlattenInjective | src/lib/libyeti/index.h:558-563 | distinct in-range vectors get distinct numbers |
| RowMajor.FlattenOnto | src/lib/libyeti/index.h:462-463 | every number below the number of sets is reached |
| RowMajor.FlattenHorner | src/lib/libyeti/index.h:462-467 | the stride-weighted sum equals the Horner-scheme number computed without strides |
| RowMajor.FlattenSnoc | src/lib/libyeti/index.h:465-467 | appending an axis multiplies the number by its size and adds its position |
| Permutations.Inverse | src/lib/libyeti/index.h:586 | the inverse is a permutation and composes to the identity both ways |
| Permutations.ApplyInverse | src/lib/libyeti/index.h:586 | reordering by p and then by its inverse, or the other way round, restores the sequence |
| Permutations.ProductPermuted | src/lib/libyeti/index.h:582-586 | reordering the axis sizes keeps their product, so permuting keeps nsets |
| Indexers.Layout | src/lib/libyeti/index.h:501-505 | init(sizes, offsets, indexmap) fills strides and set count consistently with the sizes |
| Indexers.Permute | src/lib/libyeti/index.h:586 | storage axis i takes size, offset and map entry of former axis p[i]; nsets unchanged; a bad p is a shape mismatch |
| Indexers.PermuteInverse | src/lib/libyeti/index.h:586 | permuting by the inverse restores the indexer |
| Indexers.PermutedShift | src/lib/libyeti/index.h:563-586 | permuting keeps the domain and permutes the digits of the composite index |
| Indexers.Init | src/lib/libyeti/index.h:523-529 | tables for the given sizes, offsets and map, reordered by p; nsets is the product of the sizes; mismatched lengths are a shape mismatch |
| Indexers.InitPlain | src/lib/libyeti/index.h:531-536 | the same with each axis reading its own position: storage axis i takes sizes[p[i]] and offsets[p[i]] and reads entry p[i] |
| Indexers.FromTuple | src/lib/libyeti/index.h:495-521 | sizes are the tile counts one level below each axis, offsets 0, and nsets is the number of tile tuples at that level |
| Indexers.TupleLayout | src/lib/libyeti/index.h:495-521 | the tuple indexer is the plain layout of the per-axis tile counts with zero offsets and no index map |
| Indexers.FromTupleSubset | src/lib/libyeti/index.h:538-550 | sizes of the axes the map names, reordered by p, offsets 0; a map entry past the tuple is a shape mismatch |
| Indexers.SubsetOfAllAxes | src/lib/libyeti/index.h:538-550 | mapping every axis in order gives the plain tuple indexer |
| Indexers.Index | src/lib/libyeti/index.h:558-563 | a number below nsets exactly for vectors in the domain; a map entry past the vector is a shape mismatch |
| Indexers.Extract | src/lib/libyeti/index.h:566-572 | for numbers below nsets, the positions in storage order, each axis between its offset and offset plus size; otherwise a domain violation |
| Indexers.WriteThrough | src/lib/libyeti/index.h:488-492 | entries the map names receive the axis positions when the map names distinct entries; entries it does not name are unchanged |
| Indexers.ExtractInto | src/lib/libyeti/index.h:566-572 | extract writes each axis's position into the caller's vector at the entry that axis reads and leaves other entries alone; a vector missing a mapped entry is a shape mismatch, a number from nsets on a domain violation |
| Indexers.ExtractIntoIndex | src/lib/libyeti/index.h:558-572 | extracting the index of x into x gives x, for every map naming distinct entries, permuted indexers included |
| Indexers.ExtractIndexWhole | src/lib/libyeti/index.h:558-572 | when the map names every entry of the caller's vector once, extract(index(x)) is x whatever the vector held before |
| Indexers.IndexExtractInto | src/lib/libyeti/index.h:558-572 | indexing what extract wrote gives back the number, for every map naming distinct entries |
| Indexers.PermutedExtractIndex | src/lib/libyeti/index.h:531-536 | an indexer over the caller's axes reordered by p extracts index(x) back to x in the caller's axis order |
| Indexers.ExtractIndex | src/lib/libyeti/index.h:558-572 | extracting the index of a vector gives back the positions its axes read |
| Indexers.IndexExtract | src/lib/libyeti/index.h:558-572 | any vector reading the extracted positions of c has index c |
| Indexers.ExtractThenIndex | src/lib/libyeti/index.h:558-572 | without an index map, indexing the extracted vector gives back the number |
| Indexers.IndexInjective | src/lib/libyeti/index.h:488-492 | two vectors have the same index exactly when their axes read the same positions; unread entries do not matter |
| Indexers.IndexOnto | src/lib/libyeti/index.h:578-582 | every number below nsets is the index of some vector in the domain, for every map naming distinct entries, permuted indexers included |
| Indexers.RepeatedEntryNotOnto | src/lib/libyeti/index.h:488-492 | with a map naming one entry twice the numbering is not onto: two axes of size 2 reading entry 0 never reach 1 |
| Indexers.SubsetConsistent | src/lib/libyeti/index.h:488-492 | indexing through a map equals indexing the picked-out positions directly |
| Indexers.OffsetsShift | src/lib/libyeti/index.h:469-474 | indexing with offsets equals indexing the offset-relative vector without offsets |
| Indexers.LayoutShift | src/lib/libyeti/index.h:469-474 | with offsets at most the vector, indexing with offsets equals indexing the offset-relative vector with zero offsets |
| Indexers.IndexHorner | src/lib/libyeti/index.h:558-563 | in the domain the index is the Horner-scheme number ((v0*s1 + v1)*s2 + v2)... of the offset-relative positions over the sizes |
| Indexers.PlainLayout | src/lib/libyeti/index.h:531-536 | without a permutation the tables are kept as given |
| Indexers.OffsetsExample | src/lib/libyeti/index.h:469-473 | with offsets 3, 0, 5 the vector 4, 2, 7 indexes like 1, 2, 2 (number 17 over sizes 2, 3, 3) |
| Indexers.IndexMapExample | src/lib/libyeti/index.h:488-492 | with map 0, 3, 4 the vector 3, 1, 2, 5, 6 indexes like 3, 5, 6 |
| Indexers.ThreeByThree | src/lib/libyeti/index.h:519-521 | two axes of three tiles: nine sets, tile pair (1, 2) is number 5 and back |
| Indexers.SwappedAxesExample | src/lib/libyeti/index.h:531-536 | sizes 2, 3 with the axes swapped: (1, 2) has index 5, storage positions (2, 1), and extract writes back (1, 2) |
| Indexers.IndexOfTwo | src/lib/libyeti/index.h:558-572 | for two axes without offsets or map, nsets is n0*n1, vector (i, j) numbers i*n1+j, and that number extracts back to (i, j) |
| Indexers.ThirteenByFiveExample | src/lib/libyeti/index.h:116-118 | 13 indices at 5 per tile give tiles 5, 4, 4 at starts 0, 5, 9, and two such axes give 9 sets with (1, 2) at 5 |
| Indexers.ComputeIndex | src/lib/libyeti/index.h:558-563 | the stride-sum loop returns the composite index |
| Indexers.ComputeExtract | src/lib/libyeti/index.h:566-572 | the successive-division loop returns the extracted vector |
| Indexers.DivideOut | src/lib/libyeti/index.h:566-572 | the loop's quotients are the row-major digits, each plus its offset |
| IndexDescrs.EqualsEquivalence | src/lib/libyeti/index.h:45-51 | same-index is reflexive, symmetric and transitive |
| IndexDescrs.EqualsIgnoresDetail | src/lib/libyeti/index.h:45-51 | only the id is compared: description and tile count never matter |

## Left out

- IndexRangeLocation and its comparator are not modelled: they hold a tuple's start positions for ordering and have no documented behaviour.
- CompositeIndex is not modelled: it is an opaque character buffer.
- The print routines and stream operators are not modelled: they are output only.
- The reference-counting, serialization and allocator base classes are not modelled. Neither are the `permuted_` and `tmpindices_` workspaces, which are scratch memory.
- `Indexer::index(TilePtr)` is not modelled: tiles are not part of this model.
- `split`, `equals(IndexRange*)` and `sizes` are documented in index.h but not modelled. They lie outside the tiling, query, tuple and indexing operations this model covers: `split` re-tiles a range in place, `equals` compares two ranges, and `sizes` counts the bottom-level ranges of each extent.
- `shift_bottom_range` is documented only by an unfinished sentence. `split_bottom_range`, `expand_subrange_depth`, `increment_offset(s)`, `set_offsets`, `get_zero_set` and `nsubranges` carry no documentation. None of them is modelled.
- `set_parent`, `set_index`, `index()` and `get_parent` are not modelled separately. A child's ordinal is its position, and its parent is the range that holds it.
- The constructors `IndexRange(start, n, subrange)` and `IndexRange(depth, nper, start)` are not modelled: the header does not document them.
- `IndexRangeTuple::get_unit_range`, the constructor over a raw array, and `nindex()` are not modelled. The last two are the sequence itself and its length.
- `Indexer::copy()` and the `Indexer(const Indexer*)` constructor are not modelled: they return an identical value. `Indexer()` is `Layout` with no axes.
- IndexRanges.Pad: the optional `start` argument of the padding constructors is not modelled. The wrapper takes the wrapped range's start, because a wrapper that starts elsewhere would not cover the same indices.
- `uli`, `usi` and `size_t` are modelled as unbounded naturals. The 64-bit and 16-bit wrap-around of libyeti's integer types is not modelled, because no documented behaviour depends on it.
- IndexRangeTuples.GetIndexTuples: `get_index_tuples` appends the combinations to a caller's list. The model returns the sequence, in the same depth-first order.
- Indexers.FromTuple: the sizes are the numbers of tiles one level below each axis, not the axis's extent, and the offsets are 0, not the axis's start. The constructor's declaration does not say which it takes. Only the tile reading numbers tile tuples, as `get_index_tuples` and the 13-indices-at-5-per-tile scenario with its nine sets require; an extent reading would number individual indices instead.
- IndexRangeTuples.GetIndexTuples: expands any tuple, aligned or not, because `get_index_tuples` returns nothing and has no error channel. The alignment check is `IndexRangeTuples.AlignedIndexTuples`, which refuses a misaligned tuple.
- RangeQueries.HasSubrange: ranges are compared by value, not by identity. `has_subrange` takes an `IndexRange*` and asks about one particular object; in the model a separately built range equal to a descendant counts as that descendant, because the model's ranges have no identity.
- RangeQueries.SubDepth: compared by value for the same reason; the depth reported is that of the first equal range found.
- SubindexTuples.Index: compared by value for the same reason; of two equal siblings the first position is returned.
- Indexers.ExtractInto: when the index map names one entry twice, the later axis's position is the one left in that entry. The header does not say which write wins, and the round trip and onto lemmas require a map of distinct entries.
- The permutation class itself is not part of this model. A permutation is modelled as a bijective sequence of axis numbers.

=== FILE: index_descr.dfy ===
/** The descriptor of a tile index: a short id, a sentence describing the
    index, and the number of tiles at a level.  Two descriptors describe the
    same index exactly when their ids agree. */
module IndexDescrs {
  datatype IndexDescr = IndexDescr(id: string, descr: string, n: nat)

  /** Whether two descriptors describe the same index (`equals`): only the
      ids are compared. */
  predicate Equals(a: IndexDescr, b: IndexDescr)
  {
    a.id == b.id
  }

  /** Same-index is an equivalence on descriptors. */
  lemma EqualsEquivalence(a: IndexDescr, b: IndexDescr, c: IndexDescr)
    ensures Equals(a, a)
    ensures Equals(a, b) ==> Equals(b, a)
    ensures Equals(a, b) && Equals(b, c) ==> Equals(a, c)
  {
  }

  /** The description and the tile count do not enter the comparison:
      descriptors with the same id are the same index whatever else they
      say, and descriptors with different ids never are. */
  lemma EqualsIgnoresDetail(a: IndexDescr, descr: string, n: nat)
    ensures Equals(a, IndexDescr(a.id, descr, n))
    ensures forall id :: id != a.id ==> !Equals(a, IndexDescr(id, a.descr, a.n))
  {
  }
}

=== FILE: index_range.dfy ===
/** The tiling tree over one index space, and the policies that build it.

    A node covers `n` consecutive indices from `start`; a parent owns an
    ordered child collection that tiles exactly its own indices.  The
    parent back-pointer and the stored ordinal that libyeti's `IndexRange`
    keeps are not fields here: a child's ordinal is its position in its parent's
    collection (see SubindexTuples). */
module IndexRanges {
  import opened Results
  import opened SeqMath
  import Tiling

  datatype IndexRange = IndexRange(start: nat, n: nat, subranges: seq<IndexRange>)

  /** A parent's ordered child collection. */
  type SubindexTuple = seq<IndexRange>

  /** The number of indices the ranges cover together. */
  function TotalN(rs: seq<IndexRange>): nat
  {
    if |rs| == 0 then 0 else rs[0].n + TotalN(rs[1..])
  }

  /** The extents of the ranges, in order. */
  function Extents(rs: seq<IndexRange>): (e: seq<nat>)
    ensures |e| == |rs|
    ensures forall i :: 0 <= i < |rs| ==> e[i] == rs[i].n
  {
    seq(|rs|, i requires 0 <= i < |rs| => rs[i].n)
  }

  /** Each range begins where the previous one ends, the first at `start`. */
  predicate Contiguous(rs: seq<IndexRange>, start: nat)
  {
    |rs| == 0 || (rs[0].start == start && Contiguous(rs[1..], start + rs[0].n))
  }

  /** The partition invariant, at every node of the tree: a node covers at
      least one index, and the children of a parent tile it exactly. */
  predicate Valid(r: IndexRange)
  {
    && r.n > 0
    && (|r.subranges| > 0 ==> Contiguous(r.subranges, r.start) && TotalN(r.subranges) == r.n)
    && forall i :: 0 <= i < |r.subranges| ==> Valid(r.subranges[i])
  }

  predicate AllValid(rs: seq<IndexRange>)
  {
    forall i :: 0 <= i < |rs| ==> Valid(rs[i])
  }

  /** Whether the range has subranges (`is_parent`). */
  predicate IsParent(r: IndexRange)
  {
    |r.subranges| > 0
  }

  // ---------------------------------------------------------------------
  // Facts about contiguous runs of sibling ranges

  lemma {:induction false} ContiguousAppend(a: seq<IndexRange>, b: seq<IndexRange>, start: nat)
    ensures Contiguous(a + b, start) <==> Contiguous(a, start) && Contiguous(b, start + TotalN(a))
    ensures TotalN(a + b) == TotalN(a) + TotalN(b)
  {
    if |a| == 0 {
      assert a + b == b;
    } else {
      assert (a + b)[1..] == a[1..] + b;
      ContiguousAppend(a[1..], b, start + a[0].n);
    }
  }

  /** Range i of a contiguous run starts after the extents of ranges 0 .. i-1. */
  lemma {:induction false} ContiguousStarts(rs: seq<IndexRange>, start: nat)
    requires Contiguous(rs, start)
    ensures forall i :: 0 <= i < |rs| ==> rs[i].start == start + TotalN(rs[..i])
  {
    if |rs| > 0 {
      ContiguousStarts(rs[1..], start + rs[0].n);
      forall i | 1 <= i < |rs|
        ensures rs[i].start == start + TotalN(rs[..i])
      {
        assert rs[..i][1..] == rs[1..][..i - 1];
      }
    }
  }

  /** A contiguous run ends where its extents, added to its start, end. */
  lemma {:induction false} ContiguousEnd(rs: seq<IndexRange>, start: nat)
    requires |rs| > 0 && Contiguous(rs, start)
    ensures rs[|rs| - 1].start + rs[|rs| - 1].n == start + TotalN(rs)
  {
    if |rs| > 1 {
      ContiguousEnd(rs[1..], start + rs[0].n);
    }
  }

  /** No range of a run is larger than the run's total. */
  lemma {:induction false} WithinTotal(rs: seq<IndexRange>, i: nat)
    requires i < |rs|
    ensures rs[i].n <= TotalN(rs)
  {
    if i > 0 {
      WithinTotal(rs[1..], i - 1);
    }
  }

  /** A run of ranges no larger than `m` covers at most |rs| * m indices. */
  lemma {:induction false} TotalAtMost(rs: seq<IndexRange>, m: nat)
    requires forall i :: 0 <= i < |rs| ==> rs[i].n <= m
    ensures TotalN(rs) <= |rs| * m
  {
    if |rs| > 0 {
      TotalAtMost(rs[1..], m);
      MulSucc(|rs| - 1, m);
    }
  }

  /** Any stretch of a contiguous run is contiguous from its own first start. */
  lemma ContiguousSlice(rs: seq<IndexRange>, start: nat, i: nat, j: nat)
    requires Contiguous(rs, start) && i < j <= |rs|
    ensures Contiguous(rs[i..j], rs[i].start)
  {
    assert rs == rs[..i] + (rs[i..j] + rs[j..]);
    ContiguousAppend(rs[..i], rs[i..j] + rs[j..], start);
    ContiguousAppend(rs[i..j], rs[j..], start + TotalN(rs[..i]));
  }

  lemma AllValidAppend(a: seq<IndexRange>, b: seq<IndexRange>)
    ensures AllValid(a + b) <==> AllValid(a) && AllValid(b)
  {
    if AllValid(a) && AllValid(b) {
      forall i | 0 <= i < |a + b|
        ensures Valid((a + b)[i])
      {
        if i >= |a| {
          assert (a + b)[i] == b[i - |a|];
        }
      }
    }
    if AllValid(a + b) {
      forall i | 0 <= i < |b|
        ensures Valid(b[i])
      {
        assert (a + b)[i + |a|] == b[i];
      }
      forall i | 0 <= i < |a|
        ensures Valid(a[i])
      {
        assert (a + b)[i] == a[i];
      }
    }
  }

  /** Valid ranges cover at least one index each. */
  lemma {:induction false} TotalNPositive(rs: seq<IndexRange>)
    requires AllValid(rs) && |rs| > 0
    ensures TotalN(rs) >= |rs|
  {
    if |rs| > 1 {
      TotalNPositive(rs[1..]);
    }
  }

  // ---------------------------------------------------------------------
  // Construction policies

  /** A bottom-level tile of `n` indices from `start` (`IndexRange(start, n)`). */
  function Flat(start: nat, n: nat): (r: Result<IndexRange>)
    ensures r.Ok? <==> n > 0
    ensures r.Ok? ==> Valid(r.value) && !IsParent(r.value)
    ensures r.Ok? ==> r.value.start == start && r.value.n == n
  {
    if n == 0 then Err(MalformedPartition) else Ok(IndexRange(start, n, []))
  }

  /** Bottom-level tiles of the given sizes, laid end to end from `start`. */
  function Tiles(start: nat, sizes: seq<nat>): (rs: seq<IndexRange>)
    ensures |rs| == |sizes|
    ensures forall i :: 0 <= i < |rs| ==> rs[i].subranges == [] && rs[i].n == sizes[i]
    ensures Contiguous(rs, start)
    ensures TotalN(rs) == Sum(sizes)
    decreases |sizes|
  {
    if |sizes| == 0 then []
    else
      var rest := Tiles(start + sizes[0], sizes[1..]);
      var rs := [IndexRange(start, sizes[0], [])] + rest;
      assert rs[1..] == rest;
      rs
  }

  /** Tile `i` starts after the sizes of the tiles before it. */
  lemma {:induction false} TileAt(start: nat, sizes: seq<nat>, i: nat)
    requires i < |sizes|
    ensures Tiles(start, sizes)[i] == IndexRange(start + Sum(sizes[..i]), sizes[i], [])
    decreases i
  {
    if i > 0 {
      var rest := Tiles(start + sizes[0], sizes[1..]);
      assert Tiles(start, sizes)[i] == rest[i - 1];
      TileAt(start + sizes[0], sizes[1..], i - 1);
      assert sizes[..i] == [sizes[0]] + sizes[1..][..i - 1];
    }
  }

  /** A range whose subranges have the given sizes (`IndexRange(start, subsizes)`). */
  function FromSizes(start: nat, subsizes: seq<nat>): (r: Result<IndexRange>)
    ensures r.Ok? <==> |subsizes| > 0 && forall i :: 0 <= i < |subsizes| ==> subsizes[i] > 0
    ensures r.Err? ==> r.error == MalformedPartition
    ensures r.Ok? ==> Valid(r.value) && r.value.start == start && r.value.n == Sum(subsizes)
    ensures r.Ok? ==> Extents(r.value.subranges) == subsizes
    ensures r.Ok? ==> forall i :: 0 <= i < |subsizes| ==>
      r.value.subranges[i] == IndexRange(start + Sum(subsizes[..i]), subsizes[i], [])
  {
    if |subsizes| == 0 || exists i :: 0 <= i < |subsizes| && subsizes[i] == 0 then
      Err(MalformedPartition)
    else
      var kids := Tiles(start, subsizes);
      assert Extents(kids) == subsizes;
      assert forall i :: 0 <= i < |subsizes| ==>
        kids[i] == IndexRange(start + Sum(subsizes[..i]), subsizes[i], []) by {
        forall i | 0 <= i < |subsizes| {
          TileAt(start, subsizes, i);
        }
      }
      Ok(IndexRange(start, Sum(subsizes), kids))
  }

  /** A range of `n` indices cut into balanced tiles of at most `nper`
      (`IndexRange(start, n, nper)`). */
  function Balanced(start: nat, n: nat, nper: nat): (r: Result<IndexRange>)
    ensures r.Ok? <==> n > 0 && nper > 0
    ensures r.Err? ==> r.error == MalformedPartition
    ensures r.Ok? ==> Valid(r.value) && r.value.start == start && r.value.n == n
    ensures r.Ok? ==> Extents(r.value.subranges) == Tiling.FormSizes(n, nper)
    ensures r.Ok? ==> forall i :: 0 <= i < |r.value.subranges| ==> !IsParent(r.value.subranges[i])
  {
    if n == 0 || nper == 0 then Err(MalformedPartition)
    else
      var sizes := Tiling.FormSizes(n, nper);
      assert |sizes| > 0;
      FromSizes(start, sizes)
  }

  /** A range over existing sibling ranges (`IndexRange(start, tuple)`);
      the siblings keep their own starts and extents. */
  function FromSubranges(start: nat, tuple: SubindexTuple): (r: Result<IndexRange>)
    requires AllValid(tuple)
    ensures r.Ok? <==> |tuple| > 0 && Contiguous(tuple, start)
    ensures r.Err? ==> r.error == MalformedPartition
    ensures r.Ok? ==> Valid(r.value) && r.value.start == start
    ensures r.Ok? ==> r.value.subranges == tuple && r.value.n == TotalN(tuple)
  {
    if |tuple| == 0 || !Contiguous(tuple, start) then Err(MalformedPartition)
    else
      TotalNPositive(tuple);
      Ok(IndexRange(start, TotalN(tuple), tuple))
  }

  /** A range over existing siblings, starting where the first of them does
      (`IndexRange(tuple)`). */
  function Composite(tuple: SubindexTuple): (r: Result<IndexRange>)
    requires AllValid(tuple)
    ensures r.Ok? <==> |tuple| > 0 && Contiguous(tuple, tuple[0].start)
    ensures r.Ok? ==> Valid(r.value) && r.value.subranges == tuple && r.value.start == tuple[0].start
  {
    if |tuple| == 0 then Err(MalformedPartition) else FromSubranges(tuple[0].start, tuple)
  }

  /** One extra level above `range`: a wrapper whose only child is `range`. */
  function Pad(range: IndexRange): (r: IndexRange)
    ensures Valid(range) ==> Valid(r)
    ensures r.subranges == [range] && r.start == range.start && r.n == range.n
  {
    IndexRange(range.start, range.n, [range])
  }

  /** A range over the `nslice` siblings from position `start` of `tuple`
      (`IndexRange(start, nslice, tuple)`). */
  function Slice(start: nat, nslice: nat, tuple: SubindexTuple): (r: Result<IndexRange>)
    requires AllValid(tuple)
    ensures start + nslice > |tuple| ==> r == Err(DomainViolation)
    ensures r.Ok? <==> nslice > 0 && start + nslice <= |tuple|
                       && Contiguous(tuple[start..start + nslice], tuple[start].start)
    ensures r.Ok? ==> Valid(r.value) && r.value.start == tuple[start].start
    ensures r.Ok? ==> r.value.subranges == tuple[start..start + nslice]
    ensures r.Ok? ==> r.value.n == TotalN(tuple[start..start + nslice])
  {
    if start + nslice > |tuple| then Err(DomainViolation)
    else if nslice == 0 then Err(MalformedPartition)
    else
      var part := tuple[start..start + nslice];
      assert AllValid(part) by {
        assert forall i :: 0 <= i < |part| ==> part[i] == tuple[start + i];
      }
      FromSubranges(tuple[start].start, part)
  }

  /** A parent over one run of siblings, starting where the run does. */
  function Bundle(run: seq<IndexRange>): IndexRange
    requires |run| > 0
  {
    IndexRange(run[0].start, TotalN(run), run)
  }

  function Bundles(runs: seq<seq<IndexRange>>): (bs: seq<IndexRange>)
    requires forall i :: 0 <= i < |runs| ==> |runs[i]| > 0
    ensures |bs| == |runs|
    ensures forall i :: 0 <= i < |runs| ==> bs[i] == Bundle(runs[i])
  {
    if |runs| == 0 then [] else [Bundle(runs[0])] + Bundles(runs[1..])
  }

  /** Bundling consecutive runs of a contiguous, valid sequence yields a
      contiguous, valid sequence over the same indices. */
  lemma {:induction false} BundlesTile(runs: seq<seq<IndexRange>>, start: nat)
    requires forall i :: 0 <= i < |runs| ==> |runs[i]| > 0
    requires AllValid(Concat(runs)) && Contiguous(Concat(runs), start)
    ensures AllValid(Bundles(runs))
    ensures Contiguous(Bundles(runs), start)
    ensures TotalN(Bundles(runs)) == TotalN(Concat(runs))
  {
    if |runs| > 0 {
      var head, rest := runs[0], Concat(runs[1..]);
      assert Concat(runs) == head + rest;
      ContiguousAppend(head, rest, start);
      AllValidAppend(head, rest);
      BundlesTile(runs[1..], start + TotalN(head));
      TotalNPositive(head);
      var bs := Bundles(runs);
      assert bs[1..] == Bundles(runs[1..]);
      assert Valid(bs[0]);
    }
  }

  /** A range with one subrange per run of `nper` consecutive siblings
      of `tuple` (`IndexRange(start, tuple, nper)`); the siblings keep their
      own starts and extents. */
  function Group(start: nat, tuple: SubindexTuple, nper: nat): (r: Result<IndexRange>)
    requires AllValid(tuple)
    ensures r.Ok? <==> nper > 0 && |tuple| > 0 && Contiguous(tuple, start)
    ensures r.Err? ==> r.error == MalformedPartition
    ensures r.Ok? ==> Valid(r.value) && r.value.start == start && r.value.n == TotalN(tuple)
    ensures r.Ok? ==> |r.value.subranges| == RunCount(|tuple|, nper)
    ensures r.Ok? ==> forall i :: 0 <= i < |r.value.subranges| ==>
      r.value.subranges[i].subranges == Chunks(tuple, nper)[i]
  {
    if nper == 0 || |tuple| == 0 || !Contiguous(tuple, start) then Err(MalformedPartition)
    else
      var runs := Chunks(tuple, nper);
      ChunksConcat(tuple, nper);
      BundlesTile(runs, start);
      assert |runs| > 0;
      FromSubranges(start, Bundles(runs))
  }

  /** The children of the grouped range, taken in order, are the original
      siblings. */
  lemma GroupRegroups(start: nat, tuple: SubindexTuple, nper: nat)
    requires AllValid(tuple) && nper > 0 && |tuple| > 0 && Contiguous(tuple, start)
    ensures Group(start, tuple, nper).Ok?
    ensures Concat(Grandchildren(Group(start, tuple, nper).value)) == tuple
  {
    var g := Group(start, tuple, nper).value;
    assert Grandchildren(g) == Chunks(tuple, nper);
    ChunksConcat(tuple, nper);
  }

  /** The child collections of the children of `r`, in order. */
  function Grandchildren(r: IndexRange): (gs: seq<seq<IndexRange>>)
    ensures |gs| == |r.subranges|
    ensures forall i :: 0 <= i < |gs| ==> gs[i] == r.subranges[i].subranges
  {
    seq(|r.subranges|, i requires 0 <= i < |r.subranges| => r.subranges[i].subranges)
  }

  /** The grouping example documented on the grouping constructor: eight siblings in groups
      of three give subranges over siblings 0-2, 3-5 and 6-7. */
  lemma GroupEightByThree(start: nat, tuple: SubindexTuple)
    requires AllValid(tuple) && |tuple| == 8 && Contiguous(tuple, start)
    ensures Group(start, tuple, 3).Ok?
    ensures Grandchildren(Group(start, tuple, 3).value)
         == [tuple[0..3], tuple[3..6], tuple[6..8]]
  {
    var g := Group(start, tuple, 3).value;
    assert RunCount(8, 3) == 3;
    ChunkAt(tuple, 3, 0, 0);
    ChunkAt(tuple, 3, 1, 3);
    ChunkAt(tuple, 3, 2, 6);
  }

  /** The slicing example documented on the slicing constructor: start 1 and count 2 give a
      range over exactly tuple[1] and tuple[2]. */
  lemma SliceOneTwo(tuple: SubindexTuple, start: nat)
    requires AllValid(tuple) && |tuple| >= 3 && Contiguous(tuple, start)
    ensures Slice(1, 2, tuple).Ok?
    ensures Slice(1, 2, tuple).value.subranges == [tuple[1], tuple[2]]
    ensures Slice(1, 2, tuple).value.start == tuple[1].start
    ensures Slice(1, 2, tuple).value.n == tuple[1].n + tuple[2].n
  {
    ContiguousSlice(tuple, start, 1, 3);
    assert tuple[1..3] == [tuple[1], tuple[2]];
    assert [tuple[1], tuple[2]][1..] == [tuple[2]] && [tuple[2]][1..] == [];
    assert TotalN([tuple[2]]) == tuple[2].n;
    assert TotalN([tuple[1], tuple[2]]) == tuple[1].n + tuple[2].n;
  }

  /** Slicing the child collection of a valid range always succeeds for an
      in-bounds, non-empty stretch. */
  lemma SliceOfSiblings(parent: IndexRange, start: nat, nslice: nat)
    requires Valid(parent) && nslice > 0 && start + nslice <= |parent.subranges|
    ensures Slice(start, nslice, parent.subranges).Ok?
  {
    var sub := parent.subranges;
    assert AllValid(sub) && Contiguous(sub, parent.start);
    SliceOfRun(sub, parent.start, start, nslice);
  }

  /** Any in-bounds, non-empty stretch of a contiguous run of valid ranges
      slices successfully. */
  lemma SliceOfRun(tuple: SubindexTuple, from: nat, start: nat, nslice: nat)
    requires AllValid(tuple) && Contiguous(tuple, from)
    requires nslice > 0 && start + nslice <= |tuple|
    ensures Slice(start, nslice, tuple).Ok?
  {
    ContiguousSlice(tuple, from, start, start + nslice);
  }
}

=== FILE: indexer.dfy ===
/** The composite indexer: a row-major numbering of the tile-position
    vectors of a set of axes, offset per axis and restricted to the axes
    an index map names, with an optional reordering of the axes. */
module Indexers {
  import opened Results
  import opened SeqMath
  import opened Permutations
  import opened RowMajor
  import opened IndexRanges
  import opened RangeQueries
  import opened IndexRangeTuples

  /** The tables of an indexer, one entry per axis in storage order: the
      number of positions on the axis, the position numbered 0, the entry
      of a caller's position vector the axis reads, the row-major stride,
      and the number of position vectors. */
  datatype Indexer = Indexer(
    sizes: seq<nat>,
    offsets: seq<nat>,
    indexmap: seq<nat>,
    cumulsizes: seq<nat>,
    nsets: nat)

  /** The number of axes (`nindex`). */
  function NIndex(ix: Indexer): nat
  {
    |ix.sizes|
  }

  /** The tables have one entry per axis, the strides are the row-major
      strides of the sizes, and the number of sets is their product. */
  predicate WellFormed(ix: Indexer)
  {
    && |ix.offsets| == |ix.sizes|
    && |ix.indexmap| == |ix.sizes|
    && ix.cumulsizes == Strides(ix.sizes)
    && ix.nsets == Product(ix.sizes)
  }

  /** The tables for axes already in storage order (`init(sizes, offsets, indexmap)`). */
  function Layout(sizes: seq<nat>, offsets: seq<nat>, indexmap: seq<nat>): (ix: Indexer)
    requires |offsets| == |sizes| && |indexmap| == |sizes|
    ensures WellFormed(ix) && ix.sizes == sizes && ix.offsets == offsets && ix.indexmap == indexmap
  {
    Indexer(sizes, offsets, indexmap, Strides(sizes), Product(sizes))
  }

  /** `n` zero offsets. */
  function Zeros(n: nat): (z: seq<nat>)
    ensures |z| == n && forall k :: 0 <= k < n ==> z[k] == 0
  {
    seq(n, k => 0)
  }

  /** The axes reordered so that storage axis i is the former axis p[i]
      (`permute`); rejected unless `p` permutes exactly the axes. */
  function Permute(ix: Indexer, p: seq<nat>): (r: Result<Indexer>)
    requires WellFormed(ix)
    ensures r.Ok? <==> IsPermutation(p, NIndex(ix))
    ensures r.Err? ==> r.error == ShapeMismatch
    ensures r.Ok? ==> WellFormed(r.value) && r.value.nsets == ix.nsets && NIndex(r.value) == NIndex(ix)
    ensures r.Ok? ==> forall i :: 0 <= i < NIndex(ix) ==>
      && r.value.sizes[i] == ix.sizes[p[i]]
      && r.value.offsets[i] == ix.offsets[p[i]]
      && r.value.indexmap[i] == ix.indexmap[p[i]]
  {
    if !IsPermutation(p, NIndex(ix)) then Err(ShapeMismatch)
    else
      ProductPermuted(p, ix.sizes);
      Ok(Layout(Apply(p, ix.sizes), Apply(p, ix.offsets), Apply(p, ix.indexmap)))
  }

  /** Permuting by the inverse permutation restores the indexer. */
  lemma PermuteInverse(ix: Indexer, p: seq<nat>)
    requires WellFormed(ix) && IsPermutation(p, NIndex(ix))
    ensures Permute(ix, p).Ok? && Permute(Permute(ix, p).value, Inverse(p)) == Ok(ix)
  {
    ApplyInverse(p, ix.sizes);
    ApplyInverse(p, ix.offsets);
    ApplyInverse(p, ix.indexmap);
  }

  /** An indexer over the given sizes, offsets and index map, its axes
      reordered by `p` (`Indexer(sizes, offsets, indexmap, nindex, p)`). */
  function Init(sizes: seq<nat>, offsets: seq<nat>, indexmap: seq<nat>, p: seq<nat>): (r: Result<Indexer>)
    ensures r.Ok? <==> |offsets| == |sizes| && |indexmap| == |sizes| && IsPermutation(p, |sizes|)
    ensures r.Err? ==> r.error == ShapeMismatch
    ensures r.Ok? ==> WellFormed(r.value) && r.value.nsets == Product(sizes) && NIndex(r.value) == |sizes|
    ensures r.Ok? ==> forall i :: 0 <= i < |sizes| ==>
      && r.value.sizes[i] == sizes[p[i]]
      && r.value.offsets[i] == offsets[p[i]]
      && r.value.indexmap[i] == indexmap[p[i]]
  {
    if |offsets| != |sizes| || |indexmap| != |sizes| then Err(ShapeMismatch)
    else Permute(Layout(sizes, offsets, indexmap), p)
  }

  /** An indexer reading the caller's positions in axis order
      (`Indexer(sizes, offsets, nindex, p)`). */
  function InitPlain(sizes: seq<nat>, offsets: seq<nat>, p: seq<nat>): (r: Result<Indexer>)
    ensures r.Ok? <==> |offsets| == |sizes| && IsPermutation(p, |sizes|)
    ensures r.Ok? ==> WellFormed(r.value) && r.value.nsets == Product(sizes)
    ensures r.Ok? ==> r.value.indexmap == p
    ensures r.Ok? ==> forall i :: 0 <= i < |sizes| ==>
      r.value.sizes[i] == sizes[p[i]] && r.value.offsets[i] == offsets[p[i]]
  {
    var r := Init(sizes, offsets, Identity(|sizes|), p);
    assert r.Ok? ==> r.value.indexmap == p;
    r
  }

  /** The indexer over the tiles one level below each axis of `t`, numbered
      from 0 (`Indexer(tuple)`). */
  function FromTuple(t: IndexRangeTuple): (ix: Indexer)
    ensures WellFormed(ix) && ix.sizes == TileCounts(t, 1) && ix.offsets == Zeros(|t|)
    ensures ix.nsets == |GetIndexTuples(t, 1)|
  {
    var r := Init(TileCounts(t, 1), Zeros(|t|), Identity(|t|), Identity(|t|));
    IdentityPermutes(|t|);
    assert r.Ok?;
    var ix := r.value;
    assert ix.sizes == TileCounts(t, 1);
    assert ix.offsets == Zeros(|t|);
    ix
  }

  /** The indexer over the axes of `t` named by `indexmap`, reading the
      caller's full position vector through the map and reordered by `p`
      (`Indexer(tuple, indexmap, nindex, p)`). */
  function FromTupleSubset(t: IndexRangeTuple, indexmap: seq<nat>, p: seq<nat>): (r: Result<Indexer>)
    ensures r.Ok? <==> (forall k :: 0 <= k < |indexmap| ==> indexmap[k] < |t|)
                       && IsPermutation(p, |indexmap|)
    ensures r.Err? ==> r.error == ShapeMismatch
    ensures r.Ok? ==> WellFormed(r.value) && NIndex(r.value) == |indexmap|
    ensures r.Ok? ==> forall i :: 0 <= i < |indexmap| ==>
      && r.value.sizes[i] == NTot(t[indexmap[p[i]]], 1)
      && r.value.indexmap[i] == indexmap[p[i]]
    ensures r.Ok? ==> r.value.offsets == Zeros(|indexmap|)
  {
    if exists k :: 0 <= k < |indexmap| && indexmap[k] >= |t| then Err(ShapeMismatch)
    else Init(Apply(indexmap, TileCounts(t, 1)), Zeros(|indexmap|), indexmap, p)
  }

  /** Taking every axis, in order, is the plain tuple indexer. */
  lemma SubsetOfAllAxes(t: IndexRangeTuple)
    ensures FromTupleSubset(t, Identity(|t|), Identity(|t|)) == Ok(FromTuple(t))
  {
    IdentityPermutes(|t|);
    var r := FromTupleSubset(t, Identity(|t|), Identity(|t|));
    var ix := FromTuple(t);
    assert r.value.sizes == ix.sizes;
    assert r.value.offsets == ix.offsets;
    assert r.value.indexmap == ix.indexmap;
  }

  // ---------------------------------------------------------------------
  // Indexing

  /** Every axis reads an entry that the position vector has. */
  predicate Covers(ix: Indexer, x: seq<nat>)
  {
    forall k :: 0 <= k < |ix.indexmap| ==> ix.indexmap[k] < |x|
  }

  /** The entries of `x` the axes read, in storage order. */
  function Selected(ix: Indexer, x: seq<nat>): (v: seq<nat>)
    requires Covers(ix, x)
    ensures |v| == |ix.indexmap| && forall k :: 0 <= k < |v| ==> v[k] == x[ix.indexmap[k]]
  {
    Apply(ix.indexmap, x)
  }

  /** Every axis reads a position between its offset and offset plus size. */
  predicate InDomain(ix: Indexer, x: seq<nat>)
    requires WellFormed(ix)
  {
    && Covers(ix, x)
    && forall k :: 0 <= k < NIndex(ix) ==>
         ix.offsets[k] <= x[ix.indexmap[k]] < ix.offsets[k] + ix.sizes[k]
  }

  /** The positions the axes read, made relative to the offsets. */
  function Shifted(ix: Indexer, x: seq<nat>): (v: seq<nat>)
    requires WellFormed(ix) && InDomain(ix, x)
    ensures InRange(v, ix.sizes)
    ensures forall k :: 0 <= k < |v| ==> v[k] + ix.offsets[k] == x[ix.indexmap[k]]
  {
    seq(NIndex(ix), k requires 0 <= k < NIndex(ix) => x[ix.indexmap[k]] - ix.offsets[k])
  }

  /** The composite index of position vector `x` (`index`): the sum over the
      axes of the offset-relative position times the stride. */
  function Index(ix: Indexer, x: seq<nat>): (r: Result<nat>)
    requires WellFormed(ix)
    ensures r.Ok? <==> InDomain(ix, x)
    ensures r.Err? ==> (r.error == ShapeMismatch <==> !Covers(ix, x))
    ensures r.Err? ==> r.error in {ShapeMismatch, DomainViolation}
    ensures r.Ok? ==> r.value < ix.nsets
  {
    if !Covers(ix, x) then Err(ShapeMismatch)
    else if !InDomain(ix, x) then Err(DomainViolation)
    else
      FlattenBound(Shifted(ix, x), ix.sizes);
      Ok(Dot(Shifted(ix, x), ix.cumulsizes))
  }

  /** `v` with `o` added entry by entry. */
  function AddOffsets(v: seq<nat>, o: seq<nat>): (w: seq<nat>)
    requires |v| == |o|
    ensures |w| == |v| && forall k :: 0 <= k < |v| ==> w[k] == v[k] + o[k]
  {
    seq(|v|, k requires 0 <= k < |v| => v[k] + o[k])
  }

  /** The position vector, in storage order, of composite index `c`
      (`extract`): successive division by the strides, plus the offsets. */
  function Extract(ix: Indexer, c: nat): (r: Result<seq<nat>>)
    requires WellFormed(ix)
    ensures r.Ok? <==> c < ix.nsets
    ensures r.Err? ==> r.error == DomainViolation
    ensures r.Ok? ==> |r.value| == NIndex(ix) && forall k :: 0 <= k < NIndex(ix) ==>
      ix.offsets[k] <= r.value[k] < ix.offsets[k] + ix.sizes[k]
  {
    if c >= ix.nsets then Err(DomainViolation)
    else
      FlattenUnflatten(c, ix.sizes);
      StridesPositive(ix.sizes);
      Ok(AddOffsets(Digits(c, ix.cumulsizes), ix.offsets))
  }

  /** Extracting the composite index of `x` gives back the positions the
      axes read from `x`. */
  lemma ExtractIndex(ix: Indexer, x: seq<nat>)
    requires WellFormed(ix) && InDomain(ix, x)
    ensures Extract(ix, Index(ix, x).value) == Ok(Selected(ix, x))
  {
    var v := Shifted(ix, x);
    UnflattenFlatten(v, ix.sizes);
    StridesPositive(ix.sizes);
    assert Unflatten(Flatten(v, ix.sizes), ix.sizes) == Digits(Index(ix, x).value, ix.cumulsizes);
    assert AddOffsets(v, ix.offsets) == Selected(ix, x);
  }

  /** Any vector whose read positions are the extracted ones of `c` has
      composite index `c`. */
  lemma IndexExtract(ix: Indexer, c: nat, x: seq<nat>)
    requires WellFormed(ix) && c < ix.nsets
    requires Covers(ix, x) && Selected(ix, x) == Extract(ix, c).value
    ensures Index(ix, x) == Ok(c)
  {
    FlattenUnflatten(c, ix.sizes);
    var v := Shifted(ix, x);
    assert v == Unflatten(c, ix.sizes);
  }

  /** Without an index map the two are plain inverses. */
  lemma ExtractThenIndex(ix: Indexer, c: nat)
    requires WellFormed(ix) && ix.indexmap == Identity(NIndex(ix)) && c < ix.nsets
    ensures Index(ix, Extract(ix, c).value) == Ok(c)
  {
    var y := Extract(ix, c).value;
    assert Selected(ix, y) == y;
    IndexExtract(ix, c, y);
  }

  /** Two vectors that read the same positions have the same composite
      index, and vectors with the same composite index read the same
      positions: entries no axis reads make no difference. */
  lemma IndexInjective(ix: Indexer, x: seq<nat>, y: seq<nat>)
    requires WellFormed(ix) && InDomain(ix, x) && InDomain(ix, y)
    ensures Index(ix, x) == Index(ix, y) <==> Selected(ix, x) == Selected(ix, y)
  {
    var u, v := Shifted(ix, x), Shifted(ix, y);
    if Index(ix, x) == Index(ix, y) {
      FlattenInjective(u, v, ix.sizes);
      assert forall k :: 0 <= k < NIndex(ix) ==> u[k] == v[k];
    }
    if Selected(ix, x) == Selected(ix, y) {
      assert forall k :: 0 <= k < NIndex(ix) ==> Selected(ix, x)[k] == Selected(ix, y)[k];
      assert u == v;
    }
  }

  // ---------------------------------------------------------------------
  // Writing positions back through the index map

  /** `out` with entry `m[k]` overwritten by `v[k]`, for k in increasing
      order; when `m` names an entry twice the later write stays. */
  function WriteThrough(m: seq<nat>, v: seq<nat>, out: seq<nat>): (w: seq<nat>)
    requires |v| == |m| && forall k :: 0 <= k < |m| ==> m[k] < |out|
    ensures |w| == |out|
    ensures forall j :: 0 <= j < |out| && j !in m ==> w[j] == out[j]
    ensures Distinct(m) ==> forall k :: 0 <= k < |m| ==> w[m[k]] == v[k]
    decreases |m|
  {
    if |m| == 0 then out
    else
      var rest := m[1..];
      assert forall j :: j in rest ==> j in m;
      var w := WriteThrough(rest, v[1..], out[m[0] := v[0]]);
      DistinctTail(m);
      assert forall k :: 1 <= k < |m| ==> rest[k - 1] == m[k] && v[1..][k - 1] == v[k];
      w
  }

  /** Past its first entry a map of distinct entries is again distinct,
      and does not name its first entry again. */
  lemma DistinctTail(m: seq<nat>)
    requires |m| > 0
    ensures Distinct(m) ==> Distinct(m[1..]) && m[0] !in m[1..]
  {
    var rest := m[1..];
    assert forall i :: 0 <= i < |rest| ==> rest[i] == m[i + 1];
  }

  /** The positions of composite index `c` written into the caller's vector
      `out` through the index map (`extract`): the entry an axis reads
      receives that axis's position, and every other entry is left as it
      was.  A vector missing an entry the map names is a shape mismatch;
      a number at or past the number of sets is a domain violation. */
  function ExtractInto(ix: Indexer, c: nat, out: seq<nat>): (r: Result<seq<nat>>)
    requires WellFormed(ix)
    ensures r.Ok? <==> Covers(ix, out) && c < ix.nsets
    ensures r.Err? ==> (r.error == ShapeMismatch <==> !Covers(ix, out))
    ensures r.Err? ==> r.error in {ShapeMismatch, DomainViolation}
    ensures r.Ok? ==> |r.value| == |out|
    ensures r.Ok? ==> forall j :: 0 <= j < |out| && j !in ix.indexmap ==> r.value[j] == out[j]
    ensures r.Ok? && Distinct(ix.indexmap) ==> Selected(ix, r.value) == Extract(ix, c).value
  {
    if !Covers(ix, out) then Err(ShapeMismatch)
    else if c >= ix.nsets then Err(DomainViolation)
    else
      var w := WriteThrough(ix.indexmap, Extract(ix, c).value, out);
      assert Covers(ix, w);
      Ok(w)
  }

  /** Extracting the composite index of `x` back into `x` itself gives `x`:
      every entry an axis reads is rewritten with the value it had. */
  lemma ExtractIntoIndex(ix: Indexer, x: seq<nat>)
    requires WellFormed(ix) && InDomain(ix, x) && Distinct(ix.indexmap)
    ensures ExtractInto(ix, Index(ix, x).value, x) == Ok(x)
  {
    var c := Index(ix, x).value;
    ExtractIndex(ix, x);
    var w := ExtractInto(ix, c, x).value;
    forall j | 0 <= j < |x|
      ensures w[j] == x[j]
    {
      if j in ix.indexmap {
        var k :| 0 <= k < NIndex(ix) && ix.indexmap[k] == j;
        assert Selected(ix, w)[k] == Selected(ix, x)[k];
      }
    }
    assert |w| == |x|;
    assert w == x;
  }

  /** When the map names every entry of the caller's vector exactly once
      (a permutation of the entries), extraction overwrites the whole
      vector, so whatever `out` held, the composite index of `x` extracts
      to `x`. */
  lemma ExtractIndexWhole(ix: Indexer, x: seq<nat>, out: seq<nat>)
    requires WellFormed(ix) && InDomain(ix, x) && Distinct(ix.indexmap)
    requires |out| == |x| && forall j :: 0 <= j < |x| ==> j in ix.indexmap
    ensures ExtractInto(ix, Index(ix, x).value, out) == Ok(x)
  {
    var c := Index(ix, x).value;
    ExtractIndex(ix, x);
    assert Covers(ix, out);
    var w := ExtractInto(ix, c, out).value;
    forall j | 0 <= j < |x|
      ensures w[j] == x[j]
    {
      assert j in ix.indexmap;
      var k :| 0 <= k < NIndex(ix) && ix.indexmap[k] == j;
      assert Selected(ix, w)[k] == Selected(ix, x)[k];
    }
    assert |w| == |x|;
    assert w == x;
  }

  /** Indexing what was extracted into any covering vector gives back the
      composite index. */
  lemma IndexExtractInto(ix: Indexer, c: nat, out: seq<nat>)
    requires WellFormed(ix) && c < ix.nsets && Covers(ix, out) && Distinct(ix.indexmap)
    ensures Index(ix, ExtractInto(ix, c, out).value) == Ok(c)
  {
    var w := ExtractInto(ix, c, out).value;
    assert Covers(ix, w);
    IndexExtract(ix, c, w);
  }

  /** An indexer built over the caller's axes and then permuted still
      extracts the composite index of an in-range vector back to that
      vector, in the caller's axis order. */
  lemma PermutedExtractIndex(sizes: seq<nat>, offsets: seq<nat>, p: seq<nat>, x: seq<nat>, out: seq<nat>)
    requires |offsets| == |sizes| && IsPermutation(p, |sizes|)
    requires |x| == |sizes| && |out| == |sizes|
    requires forall k :: 0 <= k < |x| ==> offsets[k] <= x[k] < offsets[k] + sizes[k]
    ensures InitPlain(sizes, offsets, p).Ok?
    ensures Index(InitPlain(sizes, offsets, p).value, x).Ok?
    ensures ExtractInto(InitPlain(sizes, offsets, p).value, Index(InitPlain(sizes, offsets, p).value, x).value, out) == Ok(x)
  {
    var n := |sizes|;
    var r := Init(sizes, offsets, Identity(n), p);
    assert InitPlain(sizes, offsets, p) == r;
    var ix := r.value;
    assert ix.indexmap == p;
    assert InDomain(ix, x) by {
      assert forall i :: 0 <= i < n ==> p[i] < n && ix.sizes[i] == sizes[p[i]] && ix.offsets[i] == offsets[p[i]];
    }
    ExtractIndexWhole(ix, x, out);
  }

  /** Every composite index below the number of sets is the index of some
      vector in the domain, whenever the map names distinct entries. */
  lemma IndexOnto(ix: Indexer, c: nat)
    requires WellFormed(ix) && Distinct(ix.indexmap) && c < ix.nsets
    ensures exists x :: InDomain(ix, x) && Index(ix, x) == Ok(c)
  {
    var out := seq(Max(ix.indexmap) + 1, j => 0);
    assert Covers(ix, out);
    IndexExtractInto(ix, c, out);
    var x := ExtractInto(ix, c, out).value;
    assert InDomain(ix, x) && Index(ix, x) == Ok(c);
  }

  /** Sizes 2 and 3 with the axes swapped in storage: the vector (1, 2) has
      composite index 5, its storage-order positions are (2, 1), and
      extraction writes them back as (1, 2) whatever the vector held. */
  lemma SwappedAxesExample(sizes: seq<nat>, off: seq<nat>, p: seq<nat>, x: seq<nat>, out: seq<nat>)
    requires sizes == [2, 3] && off == [0, 0] && p == [1, 0] && x == [1, 2] && |out| == 2
    ensures InitPlain(sizes, off, p).Ok?
    ensures Index(InitPlain(sizes, off, p).value, x) == Ok(5)
    ensures Extract(InitPlain(sizes, off, p).value, 5) == Ok([2, 1])
    ensures ExtractInto(InitPlain(sizes, off, p).value, 5, out) == Ok(x)
  {
    assert IsPermutation(p, 2) by {
      assert p[1] == 0 && p[0] == 1;
    }
    PermutedExtractIndex(sizes, off, p, x, out);
    var ix := InitPlain(sizes, off, p).value;
    SwappedIndex(ix, x);
    ExtractIndex(ix, x);
  }

  /** The arithmetic of the swapped-axes example: storage sizes 3 and 2,
      strides 2 and 1, and the vector (1, 2) read as (2, 1). */
  lemma SwappedIndex(ix: Indexer, x: seq<nat>)
    requires WellFormed(ix) && ix.sizes == [3, 2] && ix.offsets == [0, 0] && ix.indexmap == [1, 0] && x == [1, 2]
    ensures Index(ix, x) == Ok(5) && Selected(ix, x) == [2, 1]
  {
    var sz := ix.sizes;
    assert ix.cumulsizes == [2, 1] by {
      StridesCons(sz);
      StridesCons(sz[1..]);
      assert sz[1..] == [2] && sz[1..][1..] == [];
    }
    var v := Shifted(ix, x);
    assert v == [2, 1];
    var st := ix.cumulsizes;
    assert Dot(v, st) == 5 by {
      assert v[1..][1..] == [] && st[1..][1..] == [];
      assert Dot(v[1..], st[1..]) == 1;
    }
  }

  /** A map naming one entry twice makes the numbering not onto: two axes
      of size 2 reading the same entry reach only the numbers 0 and 3. */
  lemma RepeatedEntryNotOnto(ix: Indexer, x: seq<nat>)
    requires ix == Layout([2, 2], [0, 0], [0, 0])
    ensures Index(ix, x) != Ok(1)
  {
    assert ix.cumulsizes == [2, 1] by {
      StridesCons([2, 2]);
      StridesCons([2]);
      assert [2, 2][1..] == [2] && [2][1..] == [];
    }
    if Index(ix, x).Ok? {
      var v := Shifted(ix, x);
      assert v[0] == v[1];
      var st := ix.cumulsizes;
      assert Dot(v, st) == v[0] * 2 + v[1] by {
        assert v[1..][1..] == [] && st[1..][1..] == [];
        assert Dot(v[1..], st[1..]) == v[1];
      }
    }
  }

  /** An index map read through is the same as handing the indexer the
      selected positions directly. */
  lemma SubsetConsistent(sizes: seq<nat>, offsets: seq<nat>, indexmap: seq<nat>, p: seq<nat>, x: seq<nat>)
    requires Init(sizes, offsets, indexmap, p).Ok?
    requires forall k :: 0 <= k < |indexmap| ==> indexmap[k] < |x|
    ensures Index(Init(sizes, offsets, indexmap, p).value, x)
         == Index(InitPlain(sizes, offsets, p).value, Apply(indexmap, x))
  {
    var a := Init(sizes, offsets, indexmap, p).value;
    var b := InitPlain(sizes, offsets, p).value;
    var y := Apply(indexmap, x);
    var n := |sizes|;
    assert a.sizes == b.sizes && a.offsets == b.offsets by {
      assert forall k :: 0 <= k < n ==> a.sizes[k] == b.sizes[k] && a.offsets[k] == b.offsets[k];
    }
    assert Covers(b, y);
    assert forall k :: 0 <= k < n ==> x[a.indexmap[k]] == y[b.indexmap[k]];
    assert InDomain(a, x) <==> InDomain(b, y);
    if InDomain(a, x) {
      assert Shifted(a, x) == Shifted(b, y);
    }
    SameShift(a, x, b, y);
  }

  /** Offsets renumber each axis from its offset: indexing with offsets is
      indexing the offset-relative vector without them. */
  lemma OffsetsShift(sizes: seq<nat>, offsets: seq<nat>, x: seq<nat>)
    requires |offsets| == |sizes| == |x|
    requires forall k :: 0 <= k < |x| ==> offsets[k] <= x[k]
    ensures InitPlain(sizes, offsets, Identity(|sizes|)).Ok?
    ensures InitPlain(sizes, Zeros(|sizes|), Identity(|sizes|)).Ok?
    ensures Index(InitPlain(sizes, offsets, Identity(|sizes|)).value, x)
         == Index(InitPlain(sizes, Zeros(|sizes|), Identity(|sizes|)).value,
                  seq(|x|, k requires 0 <= k < |x| => x[k] - offsets[k]))
  {
    PlainLayout(sizes, offsets);
    PlainLayout(sizes, Zeros(|sizes|));
    LayoutShift(sizes, offsets, x);
  }

  lemma LayoutShift(sizes: seq<nat>, offsets: seq<nat>, x: seq<nat>)
    requires |offsets| == |sizes| == |x|
    requires forall k :: 0 <= k < |x| ==> offsets[k] <= x[k]
    ensures Index(Layout(sizes, offsets, Identity(|sizes|)), x)
         == Index(Layout(sizes, Zeros(|sizes|), Identity(|sizes|)),
                  seq(|x|, k requires 0 <= k < |x| => x[k] - offsets[k]))
  {
    var n := |sizes|;
    var a := Layout(sizes, offsets, Identity(n));
    var b := Layout(sizes, Zeros(n), Identity(n));
    var y := seq(|x|, k requires 0 <= k < |x| => x[k] - offsets[k]);
    ShiftedByOffsets(a, x, b, y);
    SameShift(a, x, b, y);
  }

  /** Reading `x` through offsets and reading `y` = `x` minus the offsets
      from 0, axis for axis, agree on the domain and the relative positions. */
  lemma ShiftedByOffsets(a: Indexer, x: seq<nat>, b: Indexer, y: seq<nat>)
    requires WellFormed(a) && WellFormed(b) && a.sizes == b.sizes
    requires a.indexmap == b.indexmap == Identity(NIndex(a))
    requires b.offsets == Zeros(NIndex(a))
    requires |x| == |y| == NIndex(a)
    requires forall k :: 0 <= k < |x| ==> y[k] + a.offsets[k] == x[k]
    ensures Covers(a, x) && Covers(b, y)
    ensures InDomain(a, x) <==> InDomain(b, y)
    ensures InDomain(a, x) ==> Shifted(a, x) == Shifted(b, y)
  {
    var n := NIndex(a);
    if InDomain(a, x) {
      assert InDomain(b, y);
      var u, v := Shifted(a, x), Shifted(b, y);
      assert forall k :: 0 <= k < n ==> u[k] == v[k];
    } else {
      assert !InDomain(b, y) by {
        var k :| 0 <= k < n && !(a.offsets[k] <= x[k] < a.offsets[k] + a.sizes[k]);
        assert !(0 <= y[k] < a.sizes[k]);
      }
    }
  }

  /** Two indexers over the same sizes give two vectors the same composite
      index when both are covered, both or neither are in the domain, and
      in the domain their offset-relative positions agree. */
  lemma SameShift(a: Indexer, x: seq<nat>, b: Indexer, y: seq<nat>)
    requires WellFormed(a) && WellFormed(b) && a.sizes == b.sizes
    requires Covers(a, x) && Covers(b, y)
    requires InDomain(a, x) <==> InDomain(b, y)
    requires InDomain(a, x) ==> Shifted(a, x) == Shifted(b, y)
    ensures Index(a, x) == Index(b, y)
  {
  }

  /** Permuting the axes keeps the domain and permutes the offset-relative
      positions, and so the digits of the composite index. */
  lemma PermutedShift(ix: Indexer, p: seq<nat>, x: seq<nat>)
    requires WellFormed(ix) && IsPermutation(p, NIndex(ix))
    ensures InDomain(Permute(ix, p).value, x) <==> InDomain(ix, x)
    ensures InDomain(ix, x) ==> Shifted(Permute(ix, p).value, x) == Apply(p, Shifted(ix, x))
  {
    var q := Permute(ix, p).value;
    var n := NIndex(ix);
    if Covers(ix, x) {
      assert Covers(q, x);
    }
    if Covers(q, x) {
      forall k | 0 <= k < n
        ensures ix.indexmap[k] < |x|
      {
        var i := Inverse(p)[k];
        assert p[i] == k;
      }
    }
    if InDomain(ix, x) {
      assert InDomain(q, x);
    }
    if InDomain(q, x) {
      forall k | 0 <= k < n
        ensures ix.offsets[k] <= x[ix.indexmap[k]] < ix.offsets[k] + ix.sizes[k]
      {
        var i := Inverse(p)[k];
        assert p[i] == k;
      }
    }
  }

  // ---------------------------------------------------------------------
  // Examples

  /** Without a permutation the plain indexer is the layout of its own tables. */
  lemma PlainLayout(sizes: seq<nat>, offsets: seq<nat>)
    requires |offsets| == |sizes|
    ensures InitPlain(sizes, offsets, Identity(|sizes|)) == Ok(Layout(sizes, offsets, Identity(|sizes|)))
  {
    var p := Identity(|sizes|);
    IdentityPermutes(|sizes|);
    var ix := InitPlain(sizes, offsets, p).value;
    assert ix.sizes == sizes && ix.offsets == offsets;
  }

  /** The tuple indexer is the layout of the tile counts, numbered from 0,
      reading the axes in order. */
  lemma TupleLayout(t: IndexRangeTuple)
    ensures FromTuple(t) == Layout(TileCounts(t, 1), Zeros(|t|), Identity(|t|))
  {
    var ix := FromTuple(t);
    IdentityPermutes(|t|);
    assert ix.indexmap == Identity(|t|);
  }

  /** In the domain, the composite index is the Horner-scheme number of the
      offset-relative positions over the sizes. */
  lemma IndexHorner(ix: Indexer, x: seq<nat>)
    requires WellFormed(ix) && InDomain(ix, x)
    ensures Index(ix, x) == Ok(Horner(Shifted(ix, x), ix.sizes))
  {
    FlattenHorner(Shifted(ix, x), ix.sizes);
  }

  /** The weighted sum of three positions. */
  lemma DotOfThree(v: seq<nat>, w: seq<nat>)
    requires |v| == 3 && |w| == 3
    ensures Dot(v, w) == v[0] * w[0] + v[1] * w[1] + v[2] * w[2]
  {
    assert v[1..][1..] == v[2..] && w[1..][1..] == w[2..];
    assert v[2..][1..] == [] && w[2..][1..] == [];
    assert Dot(v[2..], w[2..]) == v[2] * w[2];
    assert Dot(v[1..], w[1..]) == v[1] * w[1] + v[2] * w[2];
  }

  /** The composite index over three axes, numbered from their offsets. */
  lemma IndexOfThree(sizes: seq<nat>, offsets: seq<nat>, x: seq<nat>, v: seq<nat>)
    requires |sizes| == 3 && |offsets| == 3 && |x| == 3 && |v| == 3
    requires forall k :: 0 <= k < 3 ==> v[k] + offsets[k] == x[k] && v[k] < sizes[k]
    ensures Index(Layout(sizes, offsets, Identity(3)), x)
         == Ok(v[0] * (sizes[1] * sizes[2]) + v[1] * sizes[2] + v[2])
  {
    var ix := Layout(sizes, offsets, Identity(3));
    assert forall k :: 0 <= k < 3 ==> ix.indexmap[k] == k;
    assert InDomain(ix, x);
    var u := Shifted(ix, x);
    assert u == v by {
      assert forall k :: 0 <= k < 3 ==> u[k] == v[k];
    }
    var w := ix.cumulsizes;
    assert w == [sizes[1] * sizes[2], sizes[2], 1] by {
      assert sizes == [sizes[0], sizes[1], sizes[2]];
      StridesOfThree(sizes[0], sizes[1], sizes[2]);
    }
    DotOfThree(v, w);
  }

  /** With offsets 3, 0, 5 the vector 4, 2, 7 is numbered like 1, 2, 2
      (axis sizes 2, 3, 3). */
  lemma OffsetsExample(sizes: seq<nat>, offsets: seq<nat>, zeros: seq<nat>)
    requires sizes == [2, 3, 3] && offsets == [3, 0, 5] && zeros == [0, 0, 0]
    ensures InitPlain(sizes, offsets, Identity(3)).Ok? && InitPlain(sizes, zeros, Identity(3)).Ok?
    ensures Index(InitPlain(sizes, offsets, Identity(3)).value, [4, 2, 7])
         == Index(InitPlain(sizes, zeros, Identity(3)).value, [1, 2, 2])
         == Ok(17)
  {
    PlainIndexOfThree(sizes, offsets, [4, 2, 7], [1, 2, 2]);
    PlainIndexOfThree(sizes, zeros, [1, 2, 2], [1, 2, 2]);
  }

  /** The plain indexer over three axes numbers a vector like IndexOfThree. */
  lemma PlainIndexOfThree(sizes: seq<nat>, offsets: seq<nat>, x: seq<nat>, v: seq<nat>)
    requires |sizes| == 3 && |offsets| == 3 && |x| == 3 && |v| == 3
    requires forall k :: 0 <= k < 3 ==> v[k] + offsets[k] == x[k] && v[k] < sizes[k]
    ensures InitPlain(sizes, offsets, Identity(3)).Ok?
    ensures Index(InitPlain(sizes, offsets, Identity(3)).value, x)
         == Ok(v[0] * (sizes[1] * sizes[2]) + v[1] * sizes[2] + v[2])
  {
    PlainLayout(sizes, offsets);
    IndexOfThree(sizes, offsets, x, v);
  }

  /** With index map 0, 3, 4 the vector 3, 1, 2, 5, 6 is numbered like
      3, 5, 6 (axis sizes 4, 6, 7). */
  lemma IndexMapExample(sizes: seq<nat>, zeros: seq<nat>, indexmap: seq<nat>)
    requires sizes == [4, 6, 7] && zeros == [0, 0, 0] && indexmap == [0, 3, 4]
    ensures Init(sizes, zeros, indexmap, Identity(3)).Ok? && InitPlain(sizes, zeros, Identity(3)).Ok?
    ensures Index(Init(sizes, zeros, indexmap, Identity(3)).value, [3, 1, 2, 5, 6])
         == Index(InitPlain(sizes, zeros, Identity(3)).value, [3, 5, 6])
         == Ok(167)
  {
    var x := [3, 1, 2, 5, 6];
    IdentityPermutes(3);
    assert Init(sizes, zeros, indexmap, Identity(3)).Ok?;
    SubsetConsistent(sizes, zeros, indexmap, Identity(3), x);
    assert Apply(indexmap, x) == [3, 5, 6];
    PlainIndexOfThree(sizes, zeros, [3, 5, 6], [3, 5, 6]);
  }

  /** Two axes, each of three tiles: nine tile pairs, and the pair (1, 2)
      is number 5. */
  lemma ThreeByThree(r: IndexRange)
    requires |r.subranges| == 3
    ensures FromTuple(Uniform(2, r)).nsets == 9
    ensures Index(FromTuple(Uniform(2, r)), [1, 2]) == Ok(5)
    ensures Extract(FromTuple(Uniform(2, r)), 5) == Ok([1, 2])
  {
    NTotOne(r);
    var t := Uniform(2, r);
    var ix := FromTuple(t);
    assert ix.sizes == [3, 3];
    TupleLayout(t);
    IndexOfTwo(ix, [1, 2]);
  }

  /** Over two axes read in order from 0, the composite index of x0, x1 is
      x0 times the second size plus x1, and extracting it gives x0, x1 back. */
  lemma IndexOfTwo(ix: Indexer, x: seq<nat>)
    requires WellFormed(ix) && NIndex(ix) == 2 && ix.indexmap == Identity(2) && ix.offsets == Zeros(2)
    requires |x| == 2 && x[0] < ix.sizes[0] && x[1] < ix.sizes[1]
    ensures ix.nsets == ix.sizes[0] * ix.sizes[1]
    ensures Index(ix, x) == Ok(x[0] * ix.sizes[1] + x[1])
    ensures Extract(ix, x[0] * ix.sizes[1] + x[1]) == Ok(x)
  {
    var ns := ix.sizes;
    assert ns[1..][1..] == [];
    StridesCons(ns);
    StridesCons(ns[1..]);
    assert Product(ns[1..]) == ns[1];
    assert InDomain(ix, x);
    var v := Shifted(ix, x);
    assert v == x;
    var w := ix.cumulsizes;
    assert w[1] == 1 && w[0] == ns[1];
    assert v[1..][1..] == [] && w[1..][1..] == [];
    assert Dot(v[1..], w[1..]) == x[1];
    assert Dot(v, w) == x[0] * ns[1] + x[1];
    ExtractIndex(ix, x);
    assert Selected(ix, x) == x;
  }

  /** Thirteen indices in tiles of at most five give tiles of 5, 4 and 4
      starting at 0, 5 and 9, and the indexer over two such axes numbers
      the nine tile pairs. */
  lemma ThirteenByFiveExample()
    ensures Balanced(0, 13, 5).Ok?
    ensures Extents(Balanced(0, 13, 5).value.subranges) == [5, 4, 4]
    ensures var kids := Balanced(0, 13, 5).value.subranges;
      kids[0].start == 0 && kids[1].start == 5 && kids[2].start == 9
    ensures FromTuple(Uniform(2, Balanced(0, 13, 5).value)).nsets == 9
    ensures Index(FromTuple(Uniform(2, Balanced(0, 13, 5).value)), [1, 2]) == Ok(5)
  {
    Tiling.FormSizesThirteenByFive();
    var r := Balanced(0, 13, 5).value;
    var kids := r.subranges;
    assert |kids| == 3;
    ContiguousStarts(kids, 0);
    assert kids[..1] == [kids[0]] && kids[..2] == [kids[0], kids[1]];
    assert kids[0].n == 5 && kids[1].n == 4;
    assert TotalN([kids[0]]) == 5 && TotalN([kids[0], kids[1]]) == 9;
    ThreeByThree(r);
  }

  // ---------------------------------------------------------------------
  // The loops

  /** The stride sum accumulated from the last axis to the first. */
  method ComputeIndex(ix: Indexer, x: seq<nat>) returns (c: nat)
    requires WellFormed(ix) && InDomain(ix, x)
    ensures Index(ix, x) == Ok(c)
  {
    ghost var v := Shifted(ix, x);
    var w := ix.cumulsizes;
    var acc: int := 0;
    var k := NIndex(ix);
    while k > 0
      invariant 0 <= k <= NIndex(ix)
      invariant acc == Dot(v[k..], w[k..])
    {
      k := k - 1;
      assert v[k..][1..] == v[k + 1..] && w[k..][1..] == w[k + 1..];
      var d := x[ix.indexmap[k]] - ix.offsets[k];
      assert d == v[k];
      acc := d * w[k] + acc;
    }
    assert v[0..] == v && w[0..] == w;
    c := acc;
  }

  /** One step of successive division: the leading quotient, then the
      remainder divided by the remaining strides. */
  lemma DigitsStep(rem: nat, w: seq<nat>, k: nat)
    requires k < |w| && forall j :: 0 <= j < |w| ==> w[j] > 0
    ensures Digits(rem, w[k..]) == [rem / w[k]] + Digits(rem % w[k], w[k + 1..])
  {
    assert w[k..][1..] == w[k + 1..];
  }

  /** Below the number of sets, the extracted positions are the quotients
      of successive division by the strides, plus the offsets. */
  lemma ExtractDigits(ix: Indexer, c: nat)
    requires WellFormed(ix) && c < ix.nsets
    ensures forall j :: 0 <= j < |ix.cumulsizes| ==> ix.cumulsizes[j] > 0
    ensures Extract(ix, c) == Ok(AddOffsets(Digits(c, ix.cumulsizes), ix.offsets))
  {
    NonEmptyDomain(c, ix.sizes);
    StridesPositive(ix.sizes);
  }

  /** Successive division by the strides from the first axis to the last. */
  method ComputeExtract(ix: Indexer, c: nat) returns (pos: seq<nat>)
    requires WellFormed(ix) && c < ix.nsets
    ensures Extract(ix, c) == Ok(pos)
  {
    ExtractDigits(ix, c);
    pos := DivideOut(c, ix.cumulsizes, ix.offsets);
  }

  /** The quotients of successive division of `c` by the strides `w`, each
      plus its offset. */
  method DivideOut(c: nat, w: seq<nat>, off: seq<nat>) returns (pos: seq<nat>)
    requires |off| == |w| && forall j :: 0 <= j < |w| ==> w[j] > 0
    ensures pos == AddOffsets(Digits(c, w), off)
  {
    var n := |w|;
    var rem := c;
    ghost var ds: seq<nat> := [];
    pos := [];
    var k := 0;
    while k < n
      invariant 0 <= k <= n
      invariant |ds| == k && |pos| == k
      invariant forall j :: 0 <= j < k ==> pos[j] == ds[j] + off[j]
      invariant Digits(c, w) == ds + Digits(rem, w[k..])
    {
      var q, r := rem / w[k], rem % w[k];
      ghost var later := Digits(r, w[k + 1..]);
      assert Digits(rem, w[k..]) == [q] + later by {
        DigitsStep(rem, w, k);
      }
      assert ds + ([q] + later) == (ds + [q]) + later;
      ds := ds + [q];
      pos := pos + [q + off[k]];
      rem := r;
      k := k + 1;
    }
    assert Digits(rem, w[k..]) == [];
    assert ds == Digits(c, w);
  }
}

=== FILE: permutations.dfy ===
/** Axis permutations, as the bijective index sequences that reorder the
    axes of a range tuple or an indexer. */
module Permutations {
  import opened SeqMath

  /** `p` is a bijection of 0 .. n-1: every entry lies below n, no entry
      repeats, and every value below n occurs. */
  predicate IsPermutation(p: seq<nat>, n: nat)
  {
    && |p| == n
    && (forall i :: 0 <= i < n ==> p[i] < n)
    && (forall i, j :: 0 <= i < j < n ==> p[i] != p[j])
    && (forall v :: 0 <= v < n ==> v in p)
  }

  /** No entry of `m` repeats. */
  predicate Distinct(m: seq<nat>)
  {
    forall i, j :: 0 <= i < j < |m| ==> m[i] != m[j]
  }

  /** The permutation that keeps every axis in place. */
  function Identity(n: nat): (p: seq<nat>)
    ensures |p| == n && forall i :: 0 <= i < n ==> p[i] == i
  {
    seq(n, i => i)
  }

  lemma IdentityPermutes(n: nat)
    ensures IsPermutation(Identity(n), n)
  {
    var p := Identity(n);
    forall v | 0 <= v < n
      ensures v in p
    {
      assert p[v] == v;
    }
  }

  /** `s` reordered so that its entry i is `s[p[i]]`. */
  function Apply<T>(p: seq<nat>, s: seq<T>): (r: seq<T>)
    requires forall i :: 0 <= i < |p| ==> p[i] < |s|
    ensures |r| == |p|
    ensures forall i :: 0 <= i < |p| ==> r[i] == s[p[i]]
  {
    seq(|p|, i requires 0 <= i < |p| => s[p[i]])
  }

  /** The position of `v` in `p`. */
  function Find(p: seq<nat>, v: nat): (i: nat)
    requires v in p
    ensures i < |p| && p[i] == v
    ensures forall j :: 0 <= j < i ==> p[j] != v
  {
    if p[0] == v then 0 else 1 + Find(p[1..], v)
  }

  /** The permutation that undoes `p`. */
  function Inverse(p: seq<nat>): (q: seq<nat>)
    requires IsPermutation(p, |p|)
    ensures IsPermutation(q, |p|)
    ensures forall i :: 0 <= i < |p| ==> p[q[i]] == i && q[p[i]] == i
  {
    var n := |p|;
    var q := seq(n, i requires 0 <= i < n => Find(p, i));
    assert forall i :: 0 <= i < n ==> q[p[i]] == i by {
      forall i | 0 <= i < n ensures q[p[i]] == i {
        var j := Find(p, p[i]);
      }
    }
    assert forall v :: 0 <= v < n ==> v in q by {
      forall v | 0 <= v < n ensures v in q {
        assert q[p[v]] == v;
      }
    }
    q
  }

  /** Reordering by `p` and then by its inverse restores the original. */
  lemma ApplyInverse<T>(p: seq<nat>, s: seq<T>)
    requires IsPermutation(p, |s|)
    ensures Apply(Inverse(p), Apply(p, s)) == s
    ensures Apply(p, Apply(Inverse(p), s)) == s
  {
    var q := Inverse(p);
    var a, b := Apply(p, s), Apply(q, s);
    var qa, pb := Apply(q, a), Apply(p, b);
    forall i | 0 <= i < |s|
      ensures qa[i] == s[i] && pb[i] == s[i]
    {
      assert qa[i] == a[q[i]] == s[p[q[i]]];
      assert pb[i] == b[p[i]] == s[q[p[i]]];
    }
  }

  /** `p` with its entry at position `j` removed. */
  function Without(p: seq<nat>, j: nat): seq<nat>
    requires j < |p|
  {
    p[..j] + p[j + 1..]
  }

  /** Removing the position of the largest value from a permutation of
      0 .. n-1 leaves a permutation of 0 .. n-2. */
  lemma WithoutLast(p: seq<nat>, n: nat, j: nat)
    requires n > 0 && IsPermutation(p, n) && j < n && p[j] == n - 1
    ensures IsPermutation(Without(p, j), n - 1)
  {
    var p' := Without(p, j);
    assert forall i :: 0 <= i < j ==> p'[i] == p[i];
    assert forall i :: j <= i < n - 1 ==> p'[i] == p[i + 1];
    forall i | 0 <= i < n - 1
      ensures p'[i] < n - 1
    {
      if i < j {
        assert p[i] != p[j];
      } else {
        assert p[j] != p[i + 1];
      }
    }
    forall i, k | 0 <= i < k < n - 1
      ensures p'[i] != p'[k]
    {
      var i' := if i < j then i else i + 1;
      var k' := if k < j then k else k + 1;
      assert i' < k' && p'[i] == p[i'] && p'[k] == p[k'];
    }
    forall v | 0 <= v < n - 1
      ensures v in p'
    {
      var i := Find(p, v);
      if i < j {
        assert p'[i] == v;
      } else {
        assert p'[i - 1] == v;
      }
    }
  }

  /** Reordering by `p` without position `j` is reordering by `p` without
      the entry at `j`. */
  lemma ApplyWithout(p: seq<nat>, s: seq<nat>, j: nat)
    requires |s| > 0 && IsPermutation(p, |s|) && j < |s| && p[j] == |s| - 1
    ensures IsPermutation(Without(p, j), |s| - 1)
    ensures Apply(Without(p, j), s[..|s| - 1]) == Without(Apply(p, s), j)
  {
    var n := |s|;
    WithoutLast(p, n, j);
    var p' := Without(p, j);
    assert forall i :: 0 <= i < j ==> p'[i] == p[i];
    assert forall i :: j <= i < n - 1 ==> p'[i] == p[i + 1];
  }

  /** Taking one factor out of the middle of a product. */
  lemma {:induction false} ProductWithout(a: seq<nat>, j: nat)
    requires j < |a|
    ensures Product(a) == Product(Without(a, j)) * a[j]
    decreases j
  {
    var rest := a[1..];
    assert Product(a) == a[0] * Product(rest);
    if j == 0 {
      assert Without(a, 0) == rest;
    } else {
      var w := Without(rest, j - 1);
      assert Without(a, j) == [a[0]] + w by {
        assert rest[..j - 1] == a[1..j] && rest[j..] == a[j + 1..];
      }
      assert Product([a[0]] + w) == a[0] * Product(w) by {
        assert ([a[0]] + w)[1..] == w;
      }
      ProductWithout(rest, j - 1);
      assert rest[j - 1] == a[j];
      MulAssoc(a[0], Product(w), a[j]);
    }
  }

  /** Reordering the factors keeps the product. */
  lemma {:induction false} ProductPermuted(p: seq<nat>, s: seq<nat>)
    requires IsPermutation(p, |s|)
    ensures Product(Apply(p, s)) == Product(s)
  {
    var n := |s|;
    if n > 0 {
      var j := Find(p, n - 1);
      ApplyWithout(p, s, j);
      ProductPermuted(Without(p, j), s[..n - 1]);
      ProductWithout(Apply(p, s), j);
      ProductWithout(s, n - 1);
      assert Without(s, n - 1) == s[..n - 1];
    }
  }
}

=== FILE: range_queries.dfy ===
/** Depth-wise queries on the tiling tree: the ranges at a depth, their
    count, largest extent, first start and last finish; the height of the
    tree; ancestry and the depth at which a subrange sits; padding a range
    with wrapper levels.  Depth 0 is the range itself, depth d + 1 the
    ranges one level below those at depth d; a bottom-level range stands
    for itself at every deeper depth. */
module RangeQueries {
  import opened Results
  import opened SeqMath
  import opened IndexRanges

  /** The ranges `d` levels below `r`, left to right (`get_subranges`). */
  function RangesAt(r: IndexRange, d: nat): seq<IndexRange>
    decreases r, 1, 0
  {
    if d == 0 || |r.subranges| == 0 then [r] else ChildRangesAt(r, 0, d - 1)
  }

  /** The ranges `d` levels below children i, i + 1, ... of `r`, in order. */
  function ChildRangesAt(r: IndexRange, i: nat, d: nat): seq<IndexRange>
    requires i <= |r.subranges|
    decreases r, 0, |r.subranges| - i
  {
    if i == |r.subranges| then [] else RangesAt(r.subranges[i], d) + ChildRangesAt(r, i + 1, d)
  }

  lemma {:induction false} RangesAtNonEmpty(r: IndexRange, d: nat)
    ensures |RangesAt(r, d)| > 0
  {
    if d > 0 && |r.subranges| > 0 {
      RangesAtNonEmpty(r.subranges[0], d - 1);
    }
  }

  /** The partition invariant holds at every depth: the ranges at depth d
      are valid, contiguous from the start of `r`, and cover its extent. */
  lemma {:induction false} RangesAtTile(r: IndexRange, d: nat)
    requires Valid(r)
    ensures AllValid(RangesAt(r, d))
    ensures Contiguous(RangesAt(r, d), r.start)
    ensures TotalN(RangesAt(r, d)) == r.n
    decreases r, 1, 0
  {
    if d > 0 && |r.subranges| > 0 {
      ChildRangesAtTile(r, 0, d - 1);
      assert r.subranges[..0] == [] && r.subranges[0..] == r.subranges;
    } else {
      assert TotalN([r]) == r.n + TotalN([]);
    }
  }

  lemma {:induction false} ChildRangesAtTile(r: IndexRange, i: nat, d: nat)
    requires Valid(r) && i <= |r.subranges|
    ensures AllValid(ChildRangesAt(r, i, d))
    ensures Contiguous(ChildRangesAt(r, i, d), r.start + TotalN(r.subranges[..i]))
    ensures TotalN(ChildRangesAt(r, i, d)) == TotalN(r.subranges[i..])
    decreases r, 0, |r.subranges| - i
  {
    var sub := r.subranges;
    if i < |sub| {
      var c := sub[i];
      var here, later := RangesAt(c, d), ChildRangesAt(r, i + 1, d);
      assert ChildRangesAt(r, i, d) == here + later;
      var at := r.start + TotalN(sub[..i]);
      assert c.start == at by {
        ContiguousStarts(sub, r.start);
      }
      assert Valid(c);
      RangesAtTile(c, d);
      ChildRangesAtTile(r, i + 1, d);
      assert TotalN(sub[..i + 1]) == TotalN(sub[..i]) + c.n by {
        assert sub[..i + 1] == sub[..i] + [c];
        ContiguousAppend(sub[..i], [c], r.start);
        assert TotalN([c]) == c.n + TotalN([]);
      }
      assert TotalN(sub[i..]) == c.n + TotalN(sub[i + 1..]) by {
        assert sub[i..][1..] == sub[i + 1..];
      }
      ContiguousAppend(here, later, at);
      AllValidAppend(here, later);
    }
  }

  /** The number of ranges at depth `d` (`ntot`). */
  function NTot(r: IndexRange, d: nat): (t: nat)
    ensures t > 0
    ensures Valid(r) ==> t <= r.n
  {
    NTotBounds(r, d);
    |RangesAt(r, d)|
  }

  lemma NTotBounds(r: IndexRange, d: nat)
    ensures |RangesAt(r, d)| > 0
    ensures Valid(r) ==> |RangesAt(r, d)| <= r.n
  {
    RangesAtNonEmpty(r, d);
    if Valid(r) {
      RangesAtTile(r, d);
      TotalNPositive(RangesAt(r, d));
    }
  }

  /** The largest extent among the ranges at depth `d` (`nmax`). */
  function NMax(r: IndexRange, d: nat): (m: nat)
    ensures forall i :: 0 <= i < |RangesAt(r, d)| ==> RangesAt(r, d)[i].n <= m
    ensures exists i :: 0 <= i < |RangesAt(r, d)| && RangesAt(r, d)[i].n == m
    ensures Valid(r) ==> m <= r.n && r.n <= NTot(r, d) * m
  {
    NMaxBounds(r, d);
    Max(Extents(RangesAt(r, d)))
  }

  lemma NMaxBounds(r: IndexRange, d: nat)
    ensures |RangesAt(r, d)| > 0
    ensures Valid(r) ==> var m := Max(Extents(RangesAt(r, d)));
                         m <= r.n && r.n <= |RangesAt(r, d)| * m
  {
    var rs := RangesAt(r, d);
    RangesAtNonEmpty(r, d);
    var m := Max(Extents(rs));
    if Valid(r) {
      RangesAtTile(r, d);
      var i :| 0 <= i < |rs| && Extents(rs)[i] == m;
      WithinTotal(rs, i);
      TotalAtMost(rs, m);
    }
  }

  /** Below the first level, the ranges at depth 1 are the children. */
  lemma {:induction false} ChildRangesAtZero(r: IndexRange, i: nat)
    requires i <= |r.subranges|
    ensures ChildRangesAt(r, i, 0) == r.subranges[i..]
    decreases |r.subranges| - i
  {
    if i < |r.subranges| {
      ChildRangesAtZero(r, i + 1);
      assert r.subranges[i..] == [r.subranges[i]] + r.subranges[i + 1..];
    }
  }

  /** One level down there are as many ranges as subranges, or the range
      itself when it has none. */
  lemma NTotOne(r: IndexRange)
    ensures NTot(r, 1) == if IsParent(r) then |r.subranges| else 1
    ensures IsParent(r) ==> RangesAt(r, 1) == r.subranges
  {
    if IsParent(r) {
      ChildRangesAtZero(r, 0);
    }
  }

  /** The start of the first range at depth `d` (`start(depth)`). */
  function StartAt(r: IndexRange, d: nat): (s: nat)
    ensures Valid(r) ==> s == r.start
  {
    if d == 0 || |r.subranges| == 0 then r.start
    else
      var s := StartAt(r.subranges[0], d - 1);
      s
  }

  /** The exclusive end of the last range at depth `d` (`finish(depth)`). */
  function FinishAt(r: IndexRange, d: nat): (f: nat)
    ensures Valid(r) ==> f == r.start + r.n
  {
    if d == 0 || |r.subranges| == 0 then r.start + r.n
    else
      var f := FinishAt(r.subranges[|r.subranges| - 1], d - 1);
      ValidEnd(r);
      f
  }

  /** The last child of a valid parent ends where the parent does. */
  lemma ValidEnd(r: IndexRange)
    ensures Valid(r) && IsParent(r) ==>
      var last := r.subranges[|r.subranges| - 1];
      Valid(last) && last.start + last.n == r.start + r.n
  {
    if Valid(r) && IsParent(r) {
      ContiguousEnd(r.subranges, r.start);
    }
  }

  /** StartAt follows the chain of first children: it is the start of the
      first range at that depth. */
  lemma {:induction false} StartAtFirst(r: IndexRange, d: nat)
    ensures |RangesAt(r, d)| > 0
    ensures StartAt(r, d) == RangesAt(r, d)[0].start
  {
    RangesAtNonEmpty(r, d);
    if d > 0 && |r.subranges| > 0 {
      StartAtFirst(r.subranges[0], d - 1);
    }
  }

  lemma {:induction false} ChildRangesAtLast(r: IndexRange, i: nat, d: nat)
    requires i < |r.subranges|
    ensures |ChildRangesAt(r, i, d)| > 0
    ensures var cs := ChildRangesAt(r, i, d);
            var ls := RangesAt(r.subranges[|r.subranges| - 1], d);
            |ls| > 0 && cs[|cs| - 1] == ls[|ls| - 1]
    decreases |r.subranges| - i
  {
    RangesAtNonEmpty(r.subranges[i], d);
    RangesAtNonEmpty(r.subranges[|r.subranges| - 1], d);
    if i + 1 < |r.subranges| {
      ChildRangesAtLast(r, i + 1, d);
    }
  }

  /** FinishAt follows the chain of last children: it is the exclusive end
      of the last range at that depth. */
  lemma {:induction false} FinishAtLast(r: IndexRange, d: nat)
    ensures |RangesAt(r, d)| > 0
    ensures var rs := RangesAt(r, d); FinishAt(r, d) == rs[|rs| - 1].start + rs[|rs| - 1].n
  {
    RangesAtNonEmpty(r, d);
    if d > 0 && |r.subranges| > 0 {
      ChildRangesAtLast(r, 0, d - 1);
      FinishAtLast(r.subranges[|r.subranges| - 1], d - 1);
    }
  }

  /** The example documented on `finish`: subranges 0-3, 6-8 and 9-12 end at 13. */
  lemma FinishExample()
    ensures FinishAt(IndexRange(0, 13, [IndexRange(0, 4, []), IndexRange(6, 3, []), IndexRange(9, 4, [])]), 1) == 13
  {
  }

  /** The height of the tree below `r` (`depth`): 0 for a bottom-level
      range, otherwise one more than its highest child. */
  function Depth(r: IndexRange): nat
    decreases r, 1
  {
    if |r.subranges| == 0 then 0 else 1 + Max(ChildDepths(r))
  }

  /** The heights of the children of `r`, in order. */
  function ChildDepths(r: IndexRange): (hs: seq<nat>)
    ensures |hs| == |r.subranges|
    decreases r, 0
  {
    seq(|r.subranges|, j requires 0 <= j < |r.subranges| => Depth(r.subranges[j]))
  }

  /** Every child is lower than its parent, and some child is exactly one
      level lower. */
  lemma DepthOfChildren(r: IndexRange)
    ensures forall j :: 0 <= j < |r.subranges| ==> Depth(r.subranges[j]) < Depth(r)
    ensures IsParent(r) ==> exists j :: 0 <= j < |r.subranges| && Depth(r.subranges[j]) + 1 == Depth(r)
  {
    var hs := ChildDepths(r);
    assert forall j :: 0 <= j < |r.subranges| ==> hs[j] == Depth(r.subranges[j]);
    if IsParent(r) {
      var k :| 0 <= k < |hs| && hs[k] == Max(hs);
      assert Depth(r.subranges[k]) + 1 == Depth(r);
    }
  }

  /** Every range at or below the height of the tree is a bottom-level range. */
  lemma {:induction false} RangesAtBottom(r: IndexRange, d: nat)
    requires d >= Depth(r)
    ensures forall k :: 0 <= k < |RangesAt(r, d)| ==> !IsParent(RangesAt(r, d)[k])
    decreases r, 1, 0
  {
    if d > 0 && |r.subranges| > 0 {
      ChildRangesAtBottom(r, 0, d - 1);
    }
  }

  lemma {:induction false} ChildRangesAtBottom(r: IndexRange, i: nat, d: nat)
    requires i <= |r.subranges| && d + 1 >= Depth(r)
    ensures forall k :: 0 <= k < |ChildRangesAt(r, i, d)| ==> !IsParent(ChildRangesAt(r, i, d)[k])
    decreases r, 0, |r.subranges| - i
  {
    if i < |r.subranges| {
      DepthOfChildren(r);
      RangesAtBottom(r.subranges[i], d);
      ChildRangesAtBottom(r, i + 1, d);
      var a, b := RangesAt(r.subranges[i], d), ChildRangesAt(r, i + 1, d);
      assert forall k :: |a| <= k < |a + b| ==> (a + b)[k] == b[k - |a|];
    }
  }

  // ---------------------------------------------------------------------
  // Ancestry

  /** The range reached from `r` by following child positions `path`. */
  function At(r: IndexRange, path: seq<nat>): Option<IndexRange>
    decreases |path|
  {
    if |path| == 0 then Some(r)
    else if path[0] < |r.subranges| then At(r.subranges[path[0]], path[1..])
    else None
  }

  /** The depth at which `x` sits below `r`, searching the children in
      order (`get_subdepth_alignment`); None when `x` is not in the tree. */
  function SubDepth(r: IndexRange, x: IndexRange): Option<nat>
    decreases r, 1, 0
  {
    if r == x then Some(0)
    else
      match ChildSubDepth(r, x, 0)
      case Some(d) => Some(d + 1)
      case None => None
  }

  function ChildSubDepth(r: IndexRange, x: IndexRange, i: nat): Option<nat>
    requires i <= |r.subranges|
    decreases r, 0, |r.subranges| - i
  {
    if i == |r.subranges| then None
    else
      match SubDepth(r.subranges[i], x)
      case Some(d) => Some(d)
      case None => ChildSubDepth(r, x, i + 1)
  }

  /** Whether `x` is `r` or lies anywhere below it (`has_subrange`). */
  predicate HasSubrange(r: IndexRange, x: IndexRange)
  {
    SubDepth(r, x).Some?
  }

  /** A depth found by SubDepth is witnessed by a path of that length. */
  lemma {:induction false} SubDepthPath(r: IndexRange, x: IndexRange) returns (path: seq<nat>)
    requires SubDepth(r, x).Some?
    ensures |path| == SubDepth(r, x).value && At(r, path) == Some(x)
    decreases r, 1, 0
  {
    if r == x {
      path := [];
    } else {
      path := ChildSubDepthPath(r, x, 0);
    }
  }

  lemma {:induction false} ChildSubDepthPath(r: IndexRange, x: IndexRange, i: nat) returns (path: seq<nat>)
    requires i <= |r.subranges| && ChildSubDepth(r, x, i).Some?
    ensures |path| == ChildSubDepth(r, x, i).value + 1 && At(r, path) == Some(x)
    decreases r, 0, |r.subranges| - i
  {
    if SubDepth(r.subranges[i], x).Some? {
      var tail := SubDepthPath(r.subranges[i], x);
      path := [i] + tail;
      assert path[1..] == tail;
    } else {
      path := ChildSubDepthPath(r, x, i + 1);
    }
  }

  /** When SubDepth finds nothing, no path leads to `x`. */
  lemma {:induction false} NoSubDepthNoPath(r: IndexRange, x: IndexRange, path: seq<nat>)
    requires SubDepth(r, x).None?
    ensures At(r, path) != Some(x)
    decreases |path|
  {
    if |path| > 0 && path[0] < |r.subranges| {
      ChildSubDepthNone(r, x, 0, path[0]);
      NoSubDepthNoPath(r.subranges[path[0]], x, path[1..]);
    }
  }

  lemma {:induction false} ChildSubDepthNone(r: IndexRange, x: IndexRange, i: nat, j: nat)
    requires i <= j < |r.subranges| && ChildSubDepth(r, x, i).None?
    ensures SubDepth(r.subranges[j], x).None?
    decreases j - i
  {
    if i < j {
      ChildSubDepthNone(r, x, i + 1, j);
    }
  }

  /** `has_subrange` is exactly reachability along child links. */
  lemma HasSubrangeIffPath(r: IndexRange, x: IndexRange)
    ensures HasSubrange(r, x) <==> exists path :: At(r, path) == Some(x)
  {
    if HasSubrange(r, x) {
      var path := SubDepthPath(r, x);
    } else {
      forall path
        ensures At(r, path) != Some(x)
      {
        NoSubDepthNoPath(r, x, path);
      }
    }
  }

  /** A range reached along a path of length d is among the ranges at depth d. */
  lemma {:induction false} AtInRangesAt(r: IndexRange, path: seq<nat>, x: IndexRange)
    requires At(r, path) == Some(x)
    ensures x in RangesAt(r, |path|)
    decreases |path|
  {
    if |path| > 0 {
      var j := path[0];
      AtInRangesAt(r.subranges[j], path[1..], x);
      InChildRangesAt(r, 0, j, |path| - 1, x);
    }
  }

  lemma {:induction false} InChildRangesAt(r: IndexRange, i: nat, j: nat, d: nat, x: IndexRange)
    requires i <= j < |r.subranges| && x in RangesAt(r.subranges[j], d)
    ensures x in ChildRangesAt(r, i, d)
    decreases j - i
  {
    if i < j {
      InChildRangesAt(r, i + 1, j, d, x);
    }
  }

  /** The depth SubDepth reports is one at which `x` is listed. */
  lemma SubDepthListed(r: IndexRange, x: IndexRange)
    requires HasSubrange(r, x)
    ensures x in RangesAt(r, SubDepth(r, x).value)
  {
    var path := SubDepthPath(r, x);
    AtInRangesAt(r, path, x);
  }

  // ---------------------------------------------------------------------
  // Padding with wrapper levels

  /** A wrapper level adds one to the height and puts the wrapped range at depth 1. */
  lemma PadDepth(range: IndexRange)
    ensures Depth(Pad(range)) == Depth(range) + 1
    ensures SubDepth(Pad(range), range) == Some(1)
  {
    assert ChildDepths(Pad(range)) == [Depth(range)];
    assert Pad(range) != range by {
      assert Depth(Pad(range)) != Depth(range);
    }
    assert ChildSubDepth(Pad(range), range, 0) == Some(0);
  }

  /** `range` under `k` wrapper levels. */
  function Wrap(range: IndexRange, k: nat): (r: IndexRange)
    ensures Valid(range) ==> Valid(r)
    ensures r.start == range.start && r.n == range.n
    ensures Depth(r) == Depth(range) + k
    ensures SubDepth(r, range) == Some(k)
  {
    if k == 0 then range
    else
      var inner := Wrap(range, k - 1);
      PadDepth(inner);
      var r := Pad(inner);
      assert r != range by {
        assert Depth(r) != Depth(range);
      }
      assert ChildSubDepth(r, range, 0) == SubDepth(inner, range);
      r
  }

  /** Pad `range` with wrapper levels until it has height `depth` (`IndexRange(range, depth)`);
      rejected when `range` is already that high. */
  function PadToDepth(range: IndexRange, depth: nat): (r: Result<IndexRange>)
    ensures r.Ok? <==> depth > Depth(range)
    ensures r.Err? ==> r.error == Misalignment
    ensures r.Ok? ==> Depth(r.value) == depth && SubDepth(r.value, range) == Some(depth - Depth(range))
    ensures r.Ok? ==> r.value.start == range.start && r.value.n == range.n
    ensures r.Ok? && Valid(range) ==> Valid(r.value)
  {
    if depth <= Depth(range) then Err(Misalignment) else Ok(Wrap(range, depth - Depth(range)))
  }
}

=== FILE: range_tuple.dfy ===
/** One index range per tensor axis: element access, trimming, axis
    permutation, depth bounds and alignment, and the expansion into every
    combination of ranges at a common depth. */
module IndexRangeTuples {
  import opened Results
  import opened SeqMath
  import opened Permutations
  import opened RowMajor
  import opened IndexRanges
  import opened RangeQueries

  /** Axis k of a tensor is tiled by the range at position k. */
  type IndexRangeTuple = seq<IndexRange>

  /** `size` axes, all tiled like `tmpl` (`IndexRangeTuple(size, tmpl)`). */
  function Uniform(size: nat, tmpl: IndexRange): (t: IndexRangeTuple)
    ensures |t| == size
    ensures forall k :: 0 <= k < size ==> t[k] == tmpl
  {
    seq(size, k => tmpl)
  }

  /** The range of axis `idx` (`get`). */
  function Get(t: IndexRangeTuple, idx: nat): (r: Result<IndexRange>)
    ensures r.Ok? <==> idx < |t|
    ensures r.Err? ==> r.error == DomainViolation
    ensures r.Ok? ==> r.value == t[idx]
  {
    if idx < |t| then Ok(t[idx]) else Err(DomainViolation)
  }

  /** The tuple with axis `idx` replaced by `range` (`set`); the number of
      axes never changes. */
  function Set(t: IndexRangeTuple, idx: nat, range: IndexRange): (r: Result<IndexRangeTuple>)
    ensures r.Ok? <==> idx < |t|
    ensures r.Err? ==> r.error == DomainViolation
    ensures r.Ok? ==> |r.value| == |t|
  {
    if idx < |t| then Ok(t[idx := range]) else Err(DomainViolation)
  }

  /** Reading back a written axis gives what was written; every other axis
      reads as before. */
  lemma SetThenGet(t: IndexRangeTuple, idx: nat, range: IndexRange, j: nat)
    requires idx < |t|
    ensures Get(Set(t, idx, range).value, idx) == Ok(range)
    ensures j != idx ==> Get(Set(t, idx, range).value, j) == Get(t, j)
  {
  }

  /** The first `nindex` axes (`slice_front`). */
  function SliceFront(t: IndexRangeTuple, nindex: nat): (r: Result<IndexRangeTuple>)
    ensures r.Ok? <==> nindex <= |t|
    ensures r.Err? ==> r.error == DomainViolation
    ensures r.Ok? ==> |r.value| == nindex && forall k :: 0 <= k < nindex ==> r.value[k] == t[k]
  {
    if nindex <= |t| then Ok(t[..nindex]) else Err(DomainViolation)
  }

  /** The axes reordered so that new axis i is old axis p[i] (`permute`, and
      `copy` with a permutation); rejected unless `p` permutes exactly the
      axes of `t`. */
  function Permute(t: IndexRangeTuple, p: seq<nat>): (r: Result<IndexRangeTuple>)
    ensures r.Ok? <==> IsPermutation(p, |t|)
    ensures r.Err? ==> r.error == ShapeMismatch
    ensures r.Ok? ==> |r.value| == |t| && forall i :: 0 <= i < |t| ==> r.value[i] == t[p[i]]
  {
    if IsPermutation(p, |t|) then Ok(Apply(p, t)) else Err(ShapeMismatch)
  }

  /** Permuting by the inverse permutation restores the original tuple. */
  lemma PermuteInverse(t: IndexRangeTuple, p: seq<nat>)
    requires IsPermutation(p, |t|)
    ensures Permute(t, p).Ok?
    ensures Permute(Permute(t, p).value, Inverse(p)) == Ok(t)
  {
    ApplyInverse(p, t);
  }

  /** The heights of the axes. */
  function Depths(t: IndexRangeTuple): (ds: seq<nat>)
    ensures |ds| == |t| && forall k :: 0 <= k < |t| ==> ds[k] == Depth(t[k])
  {
    seq(|t|, k requires 0 <= k < |t| => Depth(t[k]))
  }

  /** The lowest axis height (`mindepth`); 0 for a tuple with no axes. */
  function MinDepth(t: IndexRangeTuple): (m: nat)
    ensures forall k :: 0 <= k < |t| ==> m <= Depth(t[k])
    ensures |t| > 0 ==> exists k :: 0 <= k < |t| && Depth(t[k]) == m
    ensures |t| == 0 ==> m == 0
  {
    var ds := Depths(t);
    var m := Min(ds);
    assert |t| > 0 ==> exists k :: 0 <= k < |t| && ds[k] == m;
    m
  }

  /** The greatest axis height (`maxdepth`); 0 for a tuple with no axes. */
  function MaxDepth(t: IndexRangeTuple): (m: nat)
    ensures forall k :: 0 <= k < |t| ==> Depth(t[k]) <= m
    ensures |t| > 0 ==> exists k :: 0 <= k < |t| && Depth(t[k]) == m
    ensures |t| == 0 ==> m == 0
  {
    var ds := Depths(t);
    var m := Max(ds);
    assert |t| > 0 ==> exists k :: 0 <= k < |t| && ds[k] == m;
    m
  }

  /** All axes reach the same depth (`is_aligned`). */
  predicate IsAligned(t: IndexRangeTuple)
  {
    MinDepth(t) == MaxDepth(t)
  }

  /** A tuple is aligned exactly when every two axes have the same height. */
  lemma AlignedIffEqualDepths(t: IndexRangeTuple)
    ensures IsAligned(t) <==> forall i, j :: 0 <= i < |t| && 0 <= j < |t| ==> Depth(t[i]) == Depth(t[j])
  {
    if forall i, j :: 0 <= i < |t| && 0 <= j < |t| ==> Depth(t[i]) == Depth(t[j]) {
      if |t| > 0 {
        var a :| 0 <= a < |t| && Depth(t[a]) == MinDepth(t);
        var b :| 0 <= b < |t| && Depth(t[b]) == MaxDepth(t);
        assert Depth(t[a]) == Depth(t[b]);
      }
    }
  }

  /** Axes of different heights are misaligned, and padding the lower one
      to the height of the other aligns them. */
  lemma PaddingAligns(a: IndexRange, b: IndexRange)
    requires Depth(a) > Depth(b)
    ensures !IsAligned([a, b])
    ensures PadToDepth(b, Depth(a)).Ok?
    ensures IsAligned([a, PadToDepth(b, Depth(a)).value])
  {
    var t := [a, b];
    assert MinDepth(t) <= Depth(t[1]) < Depth(t[0]) <= MaxDepth(t);
    var pb := PadToDepth(b, Depth(a));
    PairAligned(a, pb.value);
  }

  /** Two axes of equal height are aligned. */
  lemma PairAligned(x: IndexRange, y: IndexRange)
    requires Depth(x) == Depth(y)
    ensures IsAligned([x, y])
  {
    var u := [x, y];
    var i :| 0 <= i < |u| && Depth(u[i]) == MinDepth(u);
    var j :| 0 <= j < |u| && Depth(u[j]) == MaxDepth(u);
  }

  /** The two-axis example: a range beside its own padding is misaligned,
      and padding it as well makes the pair aligned. */
  lemma PadOnceExample(root: IndexRange)
    ensures !IsAligned([Pad(root), root])
    ensures IsAligned([Pad(root), Pad(root)])
  {
    PadDepth(root);
    PaddingAligns(Pad(root), root);
    AlignedIffEqualDepths([Pad(root), Pad(root)]);
  }

  // ---------------------------------------------------------------------
  // Expansion into index tuples

  /** The lengths of the lists. */
  function Lengths<T>(ls: seq<seq<T>>): (ns: seq<nat>)
    ensures |ns| == |ls| && forall k :: 0 <= k < |ls| ==> ns[k] == |ls[k]|
  {
    seq(|ls|, k requires 0 <= k < |ls| => |ls[k]|)
  }

  /** Every choice of one entry from each list, depth first: the first list
      varies slowest and the last fastest. */
  function Cartesian<T>(ls: seq<seq<T>>): (cs: seq<seq<T>>)
    ensures |cs| == Product(Lengths(ls))
    ensures forall c :: 0 <= c < |cs| ==> |cs[c]| == |ls|
  {
    if |ls| == 0 then
      assert Lengths(ls) == [];
      [[]]
    else
      var tail := Cartesian(ls[1..]);
      assert Lengths(ls)[1..] == Lengths(ls[1..]);
      ExpandLengths(ls[0], tail, |ls| - 1);
      Expand(ls[0], tail)
  }

  /** `x` in front of each of the choices `tail`. */
  function Prefixed<T>(x: T, tail: seq<seq<T>>): (cs: seq<seq<T>>)
    ensures |cs| == |tail| && forall j :: 0 <= j < |tail| ==> cs[j] == [x] + tail[j]
  {
    seq(|tail|, j requires 0 <= j < |tail| => [x] + tail[j])
  }

  /** Every entry of `head` in front of every choice of `tail`, the entries
      of `head` in order. */
  function Expand<T>(head: seq<T>, tail: seq<seq<T>>): (cs: seq<seq<T>>)
    ensures |cs| == |head| * |tail|
    decreases |head|
  {
    if |head| == 0 then []
    else
      MulSucc(|head| - 1, |tail|);
      Prefixed(head[0], tail) + Expand(head[1..], tail)
  }

  /** Every choice in `ss` has `m` entries. */
  predicate AllOfLength<T>(ss: seq<seq<T>>, m: nat)
  {
    forall j :: 0 <= j < |ss| ==> |ss[j]| == m
  }

  /** Putting one entry in front lengthens every choice by one. */
  lemma {:induction false} ExpandLengths<T>(head: seq<T>, tail: seq<seq<T>>, m: nat)
    requires AllOfLength(tail, m)
    ensures AllOfLength(Expand(head, tail), m + 1)
    decreases |head|
  {
    if |head| > 0 {
      ExpandLengths(head[1..], tail, m);
      var front := Prefixed(head[0], tail);
      var rest := Expand(head[1..], tail);
      assert Expand(head, tail) == front + rest;
      forall c | 0 <= c < |front + rest|
        ensures |(front + rest)[c]| == m + 1
      {
        if c >= |front| {
          assert (front + rest)[c] == rest[c - |front|];
        }
      }
    }
  }

  /** `u` takes from each list of `ls` the entry at the position `v` names. */
  ghost predicate Picks<T>(ls: seq<seq<T>>, v: seq<nat>, u: seq<T>)
  {
    && |v| == |ls| && |u| == |ls|
    && forall k :: 0 <= k < |ls| ==> v[k] < |ls[k]| && u[k] == ls[k][v[k]]
  }

  /** A pick from the first list in front of a pick from the others. */
  lemma PicksCons<T>(ls: seq<seq<T>>, q: nat, v: seq<nat>, u: seq<T>)
    requires |ls| > 0 && q < |ls[0]| && Picks(ls[1..], v, u)
    ensures Picks(ls, [q] + v, [ls[0][q]] + u)
  {
    var v', u' := [q] + v, [ls[0][q]] + u;
    forall k | 1 <= k < |ls|
      ensures v'[k] < |ls[k]| && u'[k] == ls[k][v'[k]]
    {
      assert v'[k] == v[k - 1] && u'[k] == u[k - 1] && ls[1..][k - 1] == ls[k];
    }
  }

  /** Choice `c` takes from each list the entry at its row-major digit. */
  lemma {:induction false} CartesianAt<T>(ls: seq<seq<T>>, c: nat)
    requires c < Product(Lengths(ls))
    ensures forall k :: 0 <= k < |ls| ==> |ls[k]| > 0
    ensures Picks(ls, Unflatten(c, Lengths(ls)), Cartesian(ls)[c])
  {
    if |ls| > 0 {
      var q, r := CartesianSplit(ls, c);
      CartesianAt(ls[1..], r);
      PicksCons(ls, q, Unflatten(r, Lengths(ls[1..])), Cartesian(ls[1..])[r]);
    }
  }

  /** Choice `c` splits into the leading row-major digit q, naming the
      entry of the first list, and the remainder r, naming the choice of
      the other lists. */
  lemma CartesianSplit<T>(ls: seq<seq<T>>, c: nat) returns (q: nat, r: nat)
    requires |ls| > 0 && c < Product(Lengths(ls))
    ensures forall k :: 0 <= k < |ls| ==> |ls[k]| > 0
    ensures q < |ls[0]| && r < Product(Lengths(ls[1..]))
    ensures Unflatten(c, Lengths(ls)) == [q] + Unflatten(r, Lengths(ls[1..]))
    ensures Cartesian(ls)[c] == [ls[0][q]] + Cartesian(ls[1..])[r]
  {
    var ns := Lengths(ls);
    var tl := ls[1..];
    NonEmptyDomain(c, ns);
    assert ns[1..] == Lengths(tl);
    var p := Product(Lengths(tl));
    UnflattenCons(c, ns);
    q, r := c / p, c % p;
    assert q < |ls[0]| && r < p && c == q * p + r by {
      assert Product(ns) == |ls[0]| * p;
      LeadingDigit(c, |ls[0]|, p);
    }
    CartesianCons(ls, q, r, c);
  }

  /** Entry q of the first list in front of choice r of the others is
      choice c = q * (number of those choices) + r. */
  lemma CartesianCons<T>(ls: seq<seq<T>>, q: nat, r: nat, c: nat)
    requires |ls| > 0 && q < |ls[0]| && r < |Cartesian(ls[1..])|
    requires c == q * |Cartesian(ls[1..])| + r
    ensures c < |Cartesian(ls)|
    ensures Cartesian(ls)[c] == [ls[0][q]] + Cartesian(ls[1..])[r]
  {
    var tail := Cartesian(ls[1..]);
    assert Cartesian(ls) == Expand(ls[0], tail);
    ExpandAt(ls[0], tail, q, r, c);
  }

  /** Entry i of the head in front of choice j of the tail is element
      c = i * |tail| + j of the expansion. */
  lemma {:induction false} ExpandAt<T>(head: seq<T>, tail: seq<seq<T>>, i: nat, j: nat, c: nat)
    requires i < |head| && j < |tail| && c == i * |tail| + j
    ensures c < |Expand(head, tail)|
    ensures Expand(head, tail)[c] == [head[i]] + tail[j]
    decreases i
  {
    var p := |tail|;
    assert c < |head| * p by {
      MulStrictBound(i, |head|, j, p);
    }
    var front := Prefixed(head[0], tail);
    var rest := Expand(head[1..], tail);
    assert Expand(head, tail) == front + rest;
    if i > 0 {
      assert c - p == (i - 1) * p + j by {
        MulSucc(i - 1, p);
      }
      ExpandAt(head[1..], tail, i - 1, j, c - p);
      assert (front + rest)[c] == rest[c - p];
    }
  }

  /** The position of `x` in `s`. */
  function Position<T(==)>(s: seq<T>, x: T): (i: nat)
    requires x in s
    ensures i < |s| && s[i] == x
  {
    if s[0] == x then 0 else 1 + Position(s[1..], x)
  }

  /** The choices are exactly the sequences taking one entry from each list. */
  lemma CartesianMember<T>(ls: seq<seq<T>>, u: seq<T>)
    ensures u in Cartesian(ls) <==> |u| == |ls| && forall k :: 0 <= k < |ls| ==> u[k] in ls[k]
  {
    if u in Cartesian(ls) {
      var c :| 0 <= c < |Cartesian(ls)| && Cartesian(ls)[c] == u;
      CartesianSound(ls, c);
    }
    if |u| == |ls| && forall k :: 0 <= k < |ls| ==> u[k] in ls[k] {
      CartesianComplete(ls, u);
    }
  }

  /** Every choice takes one entry from each list. */
  lemma CartesianSound<T>(ls: seq<seq<T>>, c: nat)
    requires c < |Cartesian(ls)|
    ensures |Cartesian(ls)[c]| == |ls|
    ensures forall k :: 0 <= k < |ls| ==> Cartesian(ls)[c][k] in ls[k]
  {
    CartesianAt(ls, c);
    var v := Unflatten(c, Lengths(ls));
    forall k | 0 <= k < |ls|
      ensures Cartesian(ls)[c][k] in ls[k]
    {
      assert v[k] < |ls[k]|;
    }
  }

  /** Every sequence taking one entry from each list is a choice. */
  lemma CartesianComplete<T>(ls: seq<seq<T>>, u: seq<T>)
    requires |u| == |ls| && forall k :: 0 <= k < |ls| ==> u[k] in ls[k]
    ensures u in Cartesian(ls)
  {
    var ns := Lengths(ls);
    var v := seq(|u|, k requires 0 <= k < |u| => Position(ls[k], u[k]));
    assert InRange(v, ns);
    var c := Flatten(v, ns);
    FlattenBound(v, ns);
    UnflattenFlatten(v, ns);
    CartesianAt(ls, c);
    var w := Cartesian(ls)[c];
    assert forall k :: 0 <= k < |u| ==> w[k] == u[k];
    assert w == u;
  }

  /** The ranges at depth `depth` of each axis. */
  function LevelLists(t: IndexRangeTuple, depth: nat): (ls: seq<seq<IndexRange>>)
    ensures |ls| == |t| && forall k :: 0 <= k < |t| ==> ls[k] == RangesAt(t[k], depth)
  {
    seq(|t|, k requires 0 <= k < |t| => RangesAt(t[k], depth))
  }

  /** The number of ranges at depth `depth` of each axis. */
  function TileCounts(t: IndexRangeTuple, depth: nat): (ns: seq<nat>)
    ensures ns == Lengths(LevelLists(t, depth))
    ensures |ns| == |t| && forall k :: 0 <= k < |t| ==> ns[k] == NTot(t[k], depth) > 0
  {
    seq(|t|, k requires 0 <= k < |t| => NTot(t[k], depth))
  }

  /** Every combination of one range at depth `depth` per axis, the first
      axis varying slowest (`get_index_tuples`). */
  function GetIndexTuples(t: IndexRangeTuple, depth: nat): (ts: seq<IndexRangeTuple>)
    ensures |ts| == Product(TileCounts(t, depth)) > 0
    ensures forall c :: 0 <= c < |ts| ==> |ts[c]| == |t|
  {
    var ns := TileCounts(t, depth);
    ProductPositive(ns);
    Cartesian(LevelLists(t, depth))
  }

  /** The combinations at `depth` of an aligned tuple; a tuple whose axes
      reach different heights is a misalignment, since its combinations
      would mix ranges from different levels of the trees. */
  function AlignedIndexTuples(t: IndexRangeTuple, depth: nat): (r: Result<seq<IndexRangeTuple>>)
    ensures r.Ok? <==> IsAligned(t)
    ensures r.Err? ==> r.error == Misalignment
    ensures r.Ok? ==> |r.value| == Product(TileCounts(t, depth))
    ensures r.Ok? ==> forall c :: 0 <= c < |r.value| ==> |r.value[c]| == |t|
  {
    if IsAligned(t) then Ok(GetIndexTuples(t, depth)) else Err(Misalignment)
  }

  /** A range beside its own padding is refused, and padding the other
      axis as well makes the combinations available. */
  lemma MisalignedRefused(root: IndexRange, depth: nat)
    ensures AlignedIndexTuples([Pad(root), root], depth) == Err(Misalignment)
    ensures AlignedIndexTuples([Pad(root), Pad(root)], depth).Ok?
  {
    PadOnceExample(root);
  }

  /** Combination `c` holds, on each axis, the range at that axis's
      row-major digit of `c` over the tile counts. */
  lemma IndexTupleAt(t: IndexRangeTuple, depth: nat, c: nat)
    requires c < Product(TileCounts(t, depth))
    ensures InRange(Unflatten(c, TileCounts(t, depth)), TileCounts(t, depth))
    ensures forall k :: 0 <= k < |t| ==>
      GetIndexTuples(t, depth)[c][k] == RangesAt(t[k], depth)[Unflatten(c, TileCounts(t, depth))[k]]
  {
    CartesianAt(LevelLists(t, depth), c);
  }

  /** A tuple is produced exactly when each of its axes holds a range at
      depth `depth` of the corresponding axis. */
  lemma IndexTupleMember(t: IndexRangeTuple, depth: nat, u: IndexRangeTuple)
    ensures u in GetIndexTuples(t, depth)
        <==> |u| == |t| && forall k :: 0 <= k < |t| ==> u[k] in RangesAt(t[k], depth)
  {
    CartesianMember(LevelLists(t, depth), u);
  }
}

=== FILE: results.dfy ===
/** Failure-compatible return types shared by every constructor and query
    of the index engine.  The engine treats all of its error kinds as
    contract violations detected at the point of construction or call. */
module Results {

  /** The four ways a call into the index engine can be rejected. */
  datatype Error =
    | MalformedPartition   // a zero size or extent, an empty partition, siblings that do not tile
    | DomainViolation      // a position, composite index or axis number outside its range
    | Misalignment         // a depth request that the range cannot meet
    | ShapeMismatch        // a permutation or axis map that does not fit the axis count

  datatype Result<+T> = Ok(value: T) | Err(error: Error) {

    predicate IsFailure() {
      Err?
    }

    function PropagateFailure<U>(): Result<U>
      requires Err?
    {
      Err(error)
    }

    function Extract(): T
      requires Ok?
    {
      value
    }
  }

  datatype Option<+T> = None | Some(value: T)
}

=== FILE: row_major.dfy ===
/** Row-major flattening of a vector of per-axis positions into one
    composite number, and its inverse by successive division. */
module RowMajor {
  import opened SeqMath

  /** The cumulative sizes of a row-major layout: the stride of axis k is
      the product of the sizes of the axes after it. */
  function Strides(sizes: seq<nat>): (st: seq<nat>)
    ensures |st| == |sizes|
  {
    if |sizes| == 0 then []
    else
      var rest := Strides(sizes[1..]);
      assert forall k :: 1 <= k < |sizes| ==> sizes[1..][k - 1] == sizes[k];
      [Product(sizes[1..])] + rest
  }

  /** Every position lies below its axis size. */
  predicate InRange(v: seq<nat>, sizes: seq<nat>)
  {
    |v| == |sizes| && forall k :: 0 <= k < |v| ==> v[k] < sizes[k]
  }

  /** The weighted sum of positions and strides. */
  function Dot(v: seq<nat>, w: seq<nat>): nat
    requires |v| == |w|
  {
    if |v| == 0 then 0 else v[0] * w[0] + Dot(v[1..], w[1..])
  }

  /** Quotients of successive division by the strides, keeping the remainder. */
  function Digits(c: nat, st: seq<nat>): (d: seq<nat>)
    requires forall k :: 0 <= k < |st| ==> st[k] > 0
    ensures |d| == |st|
  {
    if |st| == 0 then [] else [c / st[0]] + Digits(c % st[0], st[1..])
  }

  /** The composite number of a position vector. */
  function Flatten(v: seq<nat>, sizes: seq<nat>): nat
    requires |v| == |sizes|
  {
    Dot(v, Strides(sizes))
  }

  /** The position vector of a composite number. */
  function Unflatten(c: nat, sizes: seq<nat>): seq<nat>
    requires forall k :: 0 <= k < |sizes| ==> sizes[k] > 0
  {
    StridesPositive(sizes);
    Digits(c, Strides(sizes))
  }

  /** With every size positive, every stride is positive. */
  lemma {:induction false} StridesPositive(sizes: seq<nat>)
    requires forall k :: 0 <= k < |sizes| ==> sizes[k] > 0
    ensures forall k :: 0 <= k < |sizes| ==> Strides(sizes)[k] > 0
  {
    if |sizes| > 0 {
      var tail := sizes[1..];
      assert forall k :: 0 <= k < |tail| ==> tail[k] == sizes[k + 1];
      StridesPositive(tail);
      ProductPositive(tail);
    }
  }

  /** A composite number is positive exactly when it can be taken apart:
      the product of the sizes is positive iff every size is. */
  lemma NonEmptyDomain(c: nat, sizes: seq<nat>)
    requires c < Product(sizes)
    ensures forall k :: 0 <= k < |sizes| ==> sizes[k] > 0
  {
    ProductPositive(sizes);
  }

  /** Every in-range position vector flattens below the number of sets. */
  lemma {:induction false} FlattenBound(v: seq<nat>, sizes: seq<nat>)
    requires InRange(v, sizes)
    ensures Flatten(v, sizes) < Product(sizes)
  {
    if |v| > 0 {
      var tail := sizes[1..];
      assert InRange(v[1..], tail) by {
        assert forall k :: 0 <= k < |v[1..]| ==> v[1..][k] == v[k + 1] && tail[k] == sizes[k + 1];
      }
      FlattenBound(v[1..], tail);
      assert Strides(sizes)[1..] == Strides(tail);
      MulStrictBound(v[0], sizes[0], Flatten(v[1..], tail), Product(tail));
    }
  }

  /** Unflatten undoes Flatten on every in-range vector. */
  lemma {:induction false} UnflattenFlatten(v: seq<nat>, sizes: seq<nat>)
    requires InRange(v, sizes)
    ensures forall k :: 0 <= k < |sizes| ==> sizes[k] > 0
    ensures Unflatten(Flatten(v, sizes), sizes) == v
  {
    if |v| > 0 {
      var tail := sizes[1..];
      assert InRange(v[1..], tail) by {
        assert forall k :: 0 <= k < |v[1..]| ==> v[1..][k] == v[k + 1] && tail[k] == sizes[k + 1];
      }
      UnflattenFlatten(v[1..], tail);
      FlattenBound(v[1..], tail);
      var p := Product(tail);
      var r := Flatten(v[1..], tail);
      var c := Flatten(v, sizes);
      assert c == v[0] * p + r by {
        FlattenCons(v, sizes);
      }
      DivModUnique(v[0], r, p);
      UnflattenCons(c, sizes);
      assert v == [v[0]] + v[1..];
    }
  }

  /** Unflatten peels off the leading axis by one division. */
  lemma UnflattenCons(c: nat, sizes: seq<nat>)
    requires |sizes| > 0 && forall k :: 0 <= k < |sizes| ==> sizes[k] > 0
    ensures forall k :: 0 <= k < |sizes| - 1 ==> sizes[1..][k] > 0
    ensures Strides(sizes)[0] == Product(sizes[1..]) > 0
    ensures Unflatten(c, sizes)
         == [c / Product(sizes[1..])] + Unflatten(c % Product(sizes[1..]), sizes[1..])
  {
    var tail := sizes[1..];
    assert forall k :: 0 <= k < |tail| ==> tail[k] > 0;
    var p := Product(tail);
    assert p > 0 by {
      ProductPositive(tail);
    }
    var st := Strides(sizes);
    assert st == [p] + Strides(tail) by {
      StridesCons(sizes);
    }
    assert forall k :: 0 <= k < |st| ==> st[k] > 0 by {
      StridesPositive(sizes);
    }
    DigitsCons(c, st);
  }

  /** The strides are the product of the later sizes in front of the
      strides of the later axes. */
  lemma StridesCons(sizes: seq<nat>)
    requires |sizes| > 0
    ensures Strides(sizes) == [Product(sizes[1..])] + Strides(sizes[1..])
  {
  }

  /** Digits peels off one quotient. */
  lemma DigitsCons(c: nat, st: seq<nat>)
    requires |st| > 0 && forall k :: 0 <= k < |st| ==> st[k] > 0
    ensures Digits(c, st) == [c / st[0]] + Digits(c % st[0], st[1..])
  {
  }

  /** The leading quotient of a composite number below the number of sets
      lies below the leading size. */
  lemma LeadingDigit(c: nat, s0: nat, p: nat)
    requires p > 0 && c < s0 * p
    ensures c / p < s0 && c % p < p
    ensures c == (c / p) * p + c % p
  {
    var q, r := c / p, c % p;
    assert c == q * p + r;
    if q >= s0 {
      MulMonotone(s0, q, p);
    }
  }

  /** Flatten splits into the leading axis and the rest. */
  lemma FlattenCons(v: seq<nat>, sizes: seq<nat>)
    requires |v| == |sizes| > 0
    ensures Flatten(v, sizes) == v[0] * Product(sizes[1..]) + Flatten(v[1..], sizes[1..])
  {
    assert Strides(sizes)[1..] == Strides(sizes[1..]);
  }

  /** InRange splits into the leading axis and the rest. */
  lemma InRangeCons(v: seq<nat>, sizes: seq<nat>)
    requires |v| == |sizes| > 0
    requires v[0] < sizes[0] && InRange(v[1..], sizes[1..])
    ensures InRange(v, sizes)
  {
    assert forall k :: 1 <= k < |v| ==> v[k] == v[1..][k - 1] && sizes[k] == sizes[1..][k - 1];
  }

  /** Flatten undoes Unflatten on every composite number below the number
      of sets, and the positions it recovers are in range. */
  lemma {:induction false} FlattenUnflatten(c: nat, sizes: seq<nat>)
    requires c < Product(sizes)
    ensures forall k :: 0 <= k < |sizes| ==> sizes[k] > 0
    ensures InRange(Unflatten(c, sizes), sizes)
    ensures Flatten(Unflatten(c, sizes), sizes) == c
  {
    NonEmptyDomain(c, sizes);
    if |sizes| > 0 {
      var tail := sizes[1..];
      var p := Product(tail);
      var q, r := c / p, c % p;
      var d := Unflatten(c, sizes);
      var e := Unflatten(r, tail);
      assert p > 0 && d[0] == q && d[1..] == e by {
        UnflattenCons(c, sizes);
      }
      assert q < sizes[0] && r < p && c == q * p + r by {
        assert Product(sizes) == sizes[0] * p;
        LeadingDigit(c, sizes[0], p);
      }
      FlattenUnflatten(r, tail);
      InRangeCons(d, sizes);
      FlattenCons(d, sizes);
    }
  }

  /** Distinct in-range vectors have distinct composite numbers. */
  lemma FlattenInjective(v: seq<nat>, w: seq<nat>, sizes: seq<nat>)
    requires InRange(v, sizes) && InRange(w, sizes)
    requires Flatten(v, sizes) == Flatten(w, sizes)
    ensures v == w
  {
    UnflattenFlatten(v, sizes);
    UnflattenFlatten(w, sizes);
  }

  /** Every composite number below the number of sets is reached. */
  lemma FlattenOnto(c: nat, sizes: seq<nat>)
    requires c < Product(sizes)
    ensures exists v :: InRange(v, sizes) && Flatten(v, sizes) == c
  {
    FlattenUnflatten(c, sizes);
    var v := Unflatten(c, sizes);
    assert InRange(v, sizes) && Flatten(v, sizes) == c;
  }

  /** The row-major number by Horner's scheme, from the first axis to the
      last: multiply what the earlier axes give by the next size and add
      the next position.  No strides are involved. */
  function Horner(v: seq<nat>, sizes: seq<nat>): nat
    requires |v| == |sizes|
    decreases |v|
  {
    if |v| == 0 then 0
    else Horner(v[..|v| - 1], sizes[..|sizes| - 1]) * sizes[|sizes| - 1] + v[|v| - 1]
  }

  /** Appending an axis multiplies the number by its size and adds its
      position. */
  lemma {:induction false} FlattenSnoc(v: seq<nat>, sizes: seq<nat>, a: nat, b: nat)
    requires |v| == |sizes|
    ensures Flatten(v + [a], sizes + [b]) == Flatten(v, sizes) * b + a
    decreases |v|
  {
    var vv, ss := v + [a], sizes + [b];
    if |v| == 0 {
      assert vv == [a] && ss == [b] && ss[1..] == [];
      FlattenCons(vv, ss);
    } else {
      assert vv[0] == v[0] && vv[1..] == v[1..] + [a] && ss[1..] == sizes[1..] + [b];
      var p := Product(sizes[1..]);
      var f := Flatten(v[1..], sizes[1..]);
      assert Flatten(vv, ss) == v[0] * Product(sizes[1..] + [b]) + Flatten(v[1..] + [a], sizes[1..] + [b]) by {
        FlattenCons(vv, ss);
      }
      assert Product(sizes[1..] + [b]) == p * b by {
        ProductConcat(sizes[1..], [b]);
        assert [b][1..] == [];
      }
      FlattenSnoc(v[1..], sizes[1..], a, b);
      assert Flatten(v, sizes) == v[0] * p + f by {
        FlattenCons(v, sizes);
      }
      MulAssoc(v[0], p, b);
      MulDistrib(v[0] * p, f, b);
    }
  }

  /** The stride sum and Horner's scheme number every vector alike. */
  lemma {:induction false} FlattenHorner(v: seq<nat>, sizes: seq<nat>)
    requires |v| == |sizes|
    ensures Flatten(v, sizes) == Horner(v, sizes)
    decreases |v|
  {
    if |v| > 0 {
      var n := |v|;
      var u, s := v[..n - 1], sizes[..n - 1];
      assert v == u + [v[n - 1]] && sizes == s + [sizes[n - 1]];
      FlattenSnoc(u, s, v[n - 1], sizes[n - 1]);
      FlattenHorner(u, s);
    }
  }

  /** For sizes ni, nj, nk the strides are nj * nk, nk, 1. */
  lemma StridesOfThree(ni: nat, nj: nat, nk: nat)
    ensures Strides([ni, nj, nk]) == [nj * nk, nk, 1]
  {
    var s := [ni, nj, nk];
    assert s[1..] == [nj, nk] && s[1..][1..] == [nk] && s[1..][1..][1..] == [];
    StridesCons(s);
    StridesCons(s[1..]);
    StridesCons(s[1..][1..]);
    assert Product([nk]) == nk;
    assert Product([nj, nk]) == nj * nk;
  }

  /** The stride of axis k is the product of the sizes of the axes after it. */
  lemma {:induction false} StridesAreProducts(sizes: seq<nat>, k: nat)
    requires k < |sizes|
    ensures Strides(sizes)[k] == Product(sizes[k + 1..])
    decreases k
  {
    StridesCons(sizes);
    if k > 0 {
      StridesAreProducts(sizes[1..], k - 1);
      assert sizes[1..][k..] == sizes[k + 1..];
    }
  }
}

=== FILE: seq_math.dfy ===
/** Sums, products and extrema of natural-number sequences, cutting a
    sequence into runs, and the arithmetic facts the index engine's
    proofs rest on. */
module SeqMath {

  function Sum(s: seq<nat>): nat
  {
    if |s| == 0 then 0 else s[0] + Sum(s[1..])
  }

  function Product(s: seq<nat>): nat
  {
    if |s| == 0 then 1 else s[0] * Product(s[1..])
  }

  /** The largest element, 0 for the empty sequence. */
  function Max(s: seq<nat>): (m: nat)
    ensures forall k :: 0 <= k < |s| ==> s[k] <= m
    ensures |s| > 0 ==> exists k :: 0 <= k < |s| && s[k] == m
  {
    if |s| == 0 then 0
    else
      var rest := Max(s[1..]);
      assert forall k :: 1 <= k < |s| ==> s[k] == s[1..][k - 1];
      if s[0] >= rest then s[0]
      else
        assert exists k :: 0 <= k < |s[1..]| && s[1..][k] == rest;
        var k :| 0 <= k < |s[1..]| && s[1..][k] == rest;
        assert s[k + 1] == rest;
        rest
  }

  /** The smallest element, 0 for the empty sequence. */
  function Min(s: seq<nat>): (m: nat)
    ensures forall k :: 0 <= k < |s| ==> m <= s[k]
    ensures |s| > 0 ==> exists k :: 0 <= k < |s| && s[k] == m
  {
    if |s| == 0 then 0
    else if |s| == 1 then s[0]
    else
      var rest := Min(s[1..]);
      assert forall k :: 1 <= k < |s| ==> s[k] == s[1..][k - 1];
      if s[0] <= rest then s[0]
      else
        var k :| 0 <= k < |s[1..]| && s[1..][k] == rest;
        assert s[k + 1] == rest;
        rest
  }

  lemma {:induction false} SumConcat(a: seq<nat>, b: seq<nat>)
    ensures Sum(a + b) == Sum(a) + Sum(b)
  {
    if |a| == 0 {
      assert a + b == b;
    } else {
      assert (a + b)[1..] == a[1..] + b;
      SumConcat(a[1..], b);
    }
  }

  lemma {:induction false} ProductConcat(a: seq<nat>, b: seq<nat>)
    ensures Product(a + b) == Product(a) * Product(b)
  {
    if |a| == 0 {
      assert a + b == b;
    } else {
      assert (a + b)[1..] == a[1..] + b;
      ProductConcat(a[1..], b);
      MulAssoc(a[0], Product(a[1..]), Product(b));
    }
  }

  /** A product is positive exactly when every factor is. */
  lemma {:induction false} ProductPositive(s: seq<nat>)
    ensures Product(s) > 0 <==> forall k :: 0 <= k < |s| ==> s[k] > 0
  {
    if |s| > 0 {
      ProductPositive(s[1..]);
      assert forall k :: 1 <= k < |s| ==> s[k] == s[1..][k - 1];
      MulPositive(s[0], Product(s[1..]));
    }
  }

  lemma MulAssoc(a: int, b: int, c: int)
    ensures a * b * c == a * (b * c)
  {
  }

  lemma MulDistrib(a: nat, b: nat, d: nat)
    ensures (a + b) * d == a * d + b * d
  {
  }

  lemma MulSucc(a: nat, d: nat)
    ensures a * d + d == (a + 1) * d
  {
  }

  lemma MulPositive(a: nat, b: nat)
    ensures a * b > 0 <==> a > 0 && b > 0
  {
    if a > 0 && b > 0 {
      MulMonotone(1, a, b);
    }
  }

  /** Multiplying by a natural number keeps the order. */
  lemma MulMonotone(a: nat, b: nat, d: nat)
    requires a <= b
    ensures a * d <= b * d
  {
    assert b * d == a * d + (b - a) * d;
  }

  /** A digit below its base, placed at weight d over a remainder below d,
      stays below the next weight. */
  lemma MulStrictBound(a: nat, b: nat, r: nat, d: nat)
    requires a < b && r < d
    ensures a * d + r < b * d
  {
    MulMonotone(a + 1, b, d);
    assert (a + 1) * d == a * d + d;
  }

  /** Euclidean division recovers quotient and remainder. */
  lemma DivModUnique(q: nat, r: nat, d: nat)
    requires r < d
    ensures (q * d + r) / d == q
    ensures (q * d + r) % d == r
  {
    var c := q * d + r;
    var q', r' := c / d, c % d;
    assert c == q' * d + r';
    if q' < q {
      MulStrictBound(q', q, r', d);
      assert false;
    } else if q < q' {
      MulStrictBound(q, q', r, d);
      assert false;
    }
  }

  /** All the sequences of `ss` joined in order. */
  function Concat<T>(ss: seq<seq<T>>): seq<T>
  {
    if |ss| == 0 then [] else ss[0] + Concat(ss[1..])
  }

  /** The number of runs of at most `nper` needed for `len` items. */
  function RunCount(len: nat, nper: nat): nat
    requires nper > 0
  {
    (len + nper - 1) / nper
  }

  /** `t` cut into consecutive runs of `nper` items; only the last run may
      be shorter. */
  function Chunks<T>(t: seq<T>, nper: nat): (cs: seq<seq<T>>)
    requires nper > 0
    ensures |cs| == RunCount(|t|, nper)
    ensures forall i :: 0 <= i < |cs| ==> 0 < |cs[i]| <= nper
    ensures forall i :: 0 <= i < |cs| - 1 ==> |cs[i]| == nper
    decreases |t|
  {
    if |t| == 0 then
      DivModUnique(0, nper - 1, nper);
      []
    else if |t| <= nper then
      DivModUnique(1, |t| - 1, nper);
      [t]
    else
      var rest := Chunks(t[nper..], nper);
      RunCountStep(|t|, nper);
      assert ([t[..nper]] + rest)[1..] == rest;
      [t[..nper]] + rest
  }

  /** The runs, joined in order, give back `t`. */
  lemma {:induction false} ChunksConcat<T>(t: seq<T>, nper: nat)
    requires nper > 0
    ensures Concat(Chunks(t, nper)) == t
    decreases |t|
  {
    if |t| > nper {
      var rest := Chunks(t[nper..], nper);
      ChunksConcat(t[nper..], nper);
      assert Chunks(t, nper) == [t[..nper]] + rest;
      assert ([t[..nper]] + rest)[1..] == rest;
      assert t == t[..nper] + t[nper..];
    } else if |t| > 0 {
      assert Chunks(t, nper) == [t];
      assert [t][1..] == [];
    }
  }

  /** Run `i` holds the items from position `from` = i * nper up to the
      next multiple of `nper`, or to the end of `t`. */
  lemma {:induction false} ChunkAt<T>(t: seq<T>, nper: nat, i: nat, from: nat)
    requires nper > 0 && i < |Chunks(t, nper)| && from == i * nper
    ensures from < |t|
    ensures Chunks(t, nper)[i] == t[from .. if from + nper <= |t| then from + nper else |t|]
    decreases |t|
  {
    if i == 0 {
      assert from == 0;
      ChunkHead(t, nper);
    } else {
      var u := t[nper..];
      var m := from - nper;
      assert m == (i - 1) * nper by {
        MulSucc(i - 1, nper);
      }
      assert |t| > nper && i - 1 < |Chunks(u, nper)| && Chunks(t, nper)[i] == Chunks(u, nper)[i - 1] by {
        ChunkTail(t, nper, i);
      }
      ChunkAt(u, nper, i - 1, m);
      var e := if m + nper <= |u| then m + nper else |u|;
      assert nper + e == if from + nper <= |t| then from + nper else |t|;
      SliceOfSuffix(t, nper, m, e);
    }
  }

  /** The first run is the first `nper` items, or all of `t` when it is shorter. */
  lemma ChunkHead<T>(t: seq<T>, nper: nat)
    requires nper > 0 && |Chunks(t, nper)| > 0
    ensures |t| > 0
    ensures Chunks(t, nper)[0] == t[..if nper <= |t| then nper else |t|]
  {
  }

  /** Past the first run, the runs are those of the rest of `t`. */
  lemma ChunkTail<T>(t: seq<T>, nper: nat, i: nat)
    requires nper > 0 && 0 < i < |Chunks(t, nper)|
    ensures |t| > nper
    ensures i - 1 < |Chunks(t[nper..], nper)|
    ensures Chunks(t, nper)[i] == Chunks(t[nper..], nper)[i - 1]
  {
  }

  lemma SliceOfSuffix<T>(t: seq<T>, k: nat, a: nat, b: nat)
    requires k <= |t| && a <= b <= |t| - k
    ensures t[k..][a..b] == t[k + a .. k + b]
  {
  }

  lemma RunCountStep(len: nat, nper: nat)
    requires nper > 0 && len > nper
    ensures RunCount(len, nper) == 1 + RunCount(len - nper, nper)
  {
    var x := len - nper + nper - 1;
    var q, r := x / nper, x % nper;
    assert x == q * nper + r;
    assert len + nper - 1 == (q + 1) * nper + r;
    DivModUnique(q + 1, r, nper);
  }
}

=== FILE: subindex_tuple.dfy ===
/** The ordered child collection of a range: slicing a stretch out of it,
    looking a child up by position, and finding a child's position.  The
    position of a child in its parent's collection plays the part of the
    ordinal and parent pointer that libyeti's `IndexRange` stores. */
module SubindexTuples {
  import opened Results
  import opened IndexRanges

  /** The children from position `start` up to, not including, `stop` (`slice`). */
  function Slice(t: SubindexTuple, start: nat, stop: nat): (r: Result<SubindexTuple>)
    ensures r.Ok? <==> start <= stop <= |t|
    ensures r.Err? ==> r.error == DomainViolation
    ensures r.Ok? ==> |r.value| == stop - start
    ensures r.Ok? ==> forall k :: 0 <= k < |r.value| ==> r.value[k] == t[start + k]
  {
    if start <= stop <= |t| then Ok(t[start..stop]) else Err(DomainViolation)
  }

  /** The first position at which `x` occurs (`index`); None when it does not. */
  function Index(t: SubindexTuple, x: IndexRange): (r: Option<nat>)
    ensures r.Some? <==> x in t
    ensures r.Some? ==> r.value < |t| && t[r.value] == x
    ensures r.Some? ==> forall j :: 0 <= j < r.value ==> t[j] != x
  {
    if |t| == 0 then None
    else if t[0] == x then Some(0)
    else
      match Index(t[1..], x)
      case Some(i) => Some(i + 1)
      case None => None
  }

  /** Child `idx` of `r` (`get_subindex`). */
  function GetSubindex(r: IndexRange, idx: nat): (c: Result<IndexRange>)
    ensures c.Ok? <==> idx < |r.subranges|
    ensures c.Err? ==> c.error == DomainViolation
    ensures c.Ok? ==> c.value == r.subranges[idx]
  {
    if idx < |r.subranges| then Ok(r.subranges[idx]) else Err(DomainViolation)
  }

  /** The first child of `r` (`get_first_child`); None for a bottom-level range. */
  function FirstChild(r: IndexRange): (c: Option<IndexRange>)
    ensures c.Some? <==> IsParent(r)
    ensures c.Some? ==> c.value == r.subranges[0]
    ensures c.Some? ==> c.value.start == r.start || !Valid(r)
  {
    if |r.subranges| == 0 then None else Some(r.subranges[0])
  }

  /** In a valid parent the first child is child 0 and starts before every
      other child. */
  lemma FirstChildFirst(r: IndexRange)
    requires Valid(r) && IsParent(r)
    ensures FirstChild(r) == Some(GetSubindex(r, 0).value)
    ensures forall j :: 0 < j < |r.subranges| ==> FirstChild(r).value.start < r.subranges[j].start
  {
    forall j | 0 < j < |r.subranges|
      ensures r.subranges[0].start < r.subranges[j].start
    {
      StartsIncrease(r, 0, j);
    }
  }

  /** The children of a valid range begin at strictly increasing starts. */
  lemma StartsIncrease(r: IndexRange, i: nat, j: nat)
    requires Valid(r) && i < j < |r.subranges|
    ensures r.subranges[i].start < r.subranges[j].start
  {
    var sub := r.subranges;
    ContiguousStarts(sub, r.start);
    assert sub[..j] == sub[..i] + sub[i..j];
    ContiguousAppend(sub[..i], sub[i..j], r.start);
    assert AllValid(sub[i..j]) by {
      assert forall k :: 0 <= k < j - i ==> sub[i..j][k] == sub[i + k];
    }
    TotalNPositive(sub[i..j]);
  }

  /** A child's position is its ordinal: looking the child up by position
      returns the child, and finding the child returns its position. */
  lemma ChildOrdinal(r: IndexRange, i: nat)
    requires Valid(r) && i < |r.subranges|
    ensures Index(r.subranges, r.subranges[i]) == Some(i)
    ensures GetSubindex(r, Index(r.subranges, r.subranges[i]).value) == Ok(r.subranges[i])
  {
    var sub := r.subranges;
    var found := Index(sub, sub[i]);
    assert found.Some? && found.value <= i;
    if found.value < i {
      StartsIncrease(r, found.value, i);
      assert false;
    }
  }
}

=== FILE: tiling.dfy ===
/** The balanced tiling policy: how `form_sizes` splits an extent of `n`
    indices into tiles of at most `nper` indices each. */
module Tiling {
  import opened SeqMath

  /** `extra` tiles of size `base + 1` followed by tiles of size `base`,
      `count` tiles in all. */
  function Step(count: nat, extra: nat, base: nat): seq<nat>
  {
    seq(count, i => if i < extra then base + 1 else base)
  }

  /** Tile sizes never increase along the sequence and differ by at most one. */
  predicate Balanced(s: seq<nat>)
  {
    forall i, j :: 0 <= i < j < |s| ==> s[j] <= s[i] <= s[j] + 1
  }

  /** The tile sizes for `n` indices with a requested tile size of `nper`:
      the fewest tiles that respect the cap, sizes as even as possible,
      the larger tiles first. */
  function FormSizes(n: nat, nper: nat): (sizes: seq<nat>)
    requires nper > 0
    ensures |sizes| == RunCount(n, nper)
    ensures Sum(sizes) == n
    ensures Balanced(sizes)
    ensures forall i :: 0 <= i < |sizes| ==> 0 < sizes[i] <= nper
    ensures n > 0 ==> (|sizes| - 1) * nper < n
  {
    var k := RunCount(n, nper);
    RunCountBounds(n, nper);
    if k == 0 then []
    else
      FormSizesStep(n, nper, k);
      Step(k, n % k, n / k)
  }

  lemma FormSizesStep(n: nat, nper: nat, k: nat)
    requires nper > 0 && k == RunCount(n, nper) && k > 0
    ensures Sum(Step(k, n % k, n / k)) == n
    ensures Balanced(Step(k, n % k, n / k))
    ensures forall i :: 0 <= i < k ==> 0 < Step(k, n % k, n / k)[i] <= nper
  {
    var base, extra := n / k, n % k;
    StepSum(k, extra, base);
    assert n == k * base + extra;
    StepCap(n, nper, k);
  }

  /** ceil(n / nper) tiles of the cap cover n, and one fewer would not. */
  lemma RunCountBounds(n: nat, nper: nat)
    requires nper > 0
    ensures n <= RunCount(n, nper) * nper
    ensures n > 0 ==> (RunCount(n, nper) - 1) * nper < n
    ensures RunCount(n, nper) <= n
    ensures RunCount(n, nper) == 0 <==> n == 0
  {
    var k := RunCount(n, nper);
    var rem := (n + nper - 1) % nper;
    assert n + nper - 1 == k * nper + rem;
    if n > 0 {
      assert (k - 1) * nper == k * nper - nper;
      MulMonotone(1, nper, k - 1);
      assert k - 1 <= (k - 1) * nper;
    } else {
      DivModUnique(0, nper - 1, nper);
    }
  }

  lemma {:induction false} StepSum(count: nat, extra: nat, base: nat)
    requires extra <= count
    ensures Sum(Step(count, extra, base)) == count * base + extra
  {
    if count > 0 {
      var rest := if extra > 0 then extra - 1 else 0;
      assert Step(count, extra, base)[1..] == Step(count - 1, rest, base);
      StepSum(count - 1, rest, base);
    }
  }

  /** The larger tile size never exceeds the cap, and the smaller one is positive. */
  lemma StepCap(n: nat, nper: nat, k: nat)
    requires nper > 0 && k == RunCount(n, nper) && k > 0
    ensures 0 < n / k && n / k <= nper
    ensures n % k > 0 ==> n / k + 1 <= nper
  {
    RunCountBounds(n, nper);
    var b: nat, e: nat := n / k, n % k;
    var above: nat := nper + 1;
    assert n == b * k + e;
    if b > nper {
      MulMonotone(above, b, k);
      assert false;
    }
    if e > 0 && b >= nper {
      MulMonotone(nper, b, k);
    }
  }

  /** The number of entries above `m`. */
  function CountAbove(s: seq<nat>, m: nat): nat
  {
    if |s| == 0 then 0 else (if s[0] > m then 1 else 0) + CountAbove(s[1..], m)
  }

  /** A balanced sequence whose entries lie in {m, m + 1} is a step. */
  lemma {:induction false} BalancedIsStep(s: seq<nat>, m: nat)
    requires Balanced(s)
    requires forall i :: 0 <= i < |s| ==> m <= s[i] <= m + 1
    ensures s == Step(|s|, CountAbove(s, m), m)
    ensures CountAbove(s, m) <= |s|
  {
    if |s| > 0 {
      var t := s[1..];
      assert Balanced(t) by {
        forall i, j | 0 <= i < j < |t| ensures t[j] <= t[i] <= t[j] + 1 {
          assert t[i] == s[i + 1] && t[j] == s[j + 1];
        }
      }
      BalancedIsStep(t, m);
      assert s == [s[0]] + t;
    }
  }

  /** FormSizes is the only balanced sequence of RunCount(n, nper) sizes
      adding up to n. */
  lemma FormSizesUnique(n: nat, nper: nat, s: seq<nat>)
    requires nper > 0
    requires |s| == RunCount(n, nper) && Sum(s) == n && Balanced(s)
    ensures s == FormSizes(n, nper)
  {
    var k := |s|;
    if k > 0 {
      var m := s[k - 1];
      assert forall i :: 0 <= i < k ==> m <= s[i] <= m + 1 by {
        forall i | 0 <= i < k ensures m <= s[i] <= m + 1 {
          if i < k - 1 {
            assert s[k - 1] <= s[i] <= s[k - 1] + 1;
          }
        }
      }
      BalancedIsStep(s, m);
      var c := CountAbove(s, m);
      assert c < k by {
        assert s[k - 1] == Step(k, c, m)[k - 1];
      }
      StepSum(k, c, m);
      assert n == m * k + c;
      DivModUnique(m, c, k);
    }
  }

  /** The example documented on `form_sizes`: 13 indices in tiles of at most 5
      become 5, 4, 4 rather than 5, 5, 3. */
  lemma FormSizesThirteenByFive()
    ensures FormSizes(13, 5) == [5, 4, 4]
    ensures !Balanced([5, 5, 3])
  {
    assert Sum([5, 4, 4]) == 13;
    assert Balanced([5, 4, 4]);
    FormSizesUnique(13, 5, [5, 4, 4]);
    assert !([5, 5, 3][1] <= [5, 5, 3][2] + 1);
  }

  /** An extent of m full tiles splits into m tiles of the cap. */
  lemma FormSizesExact(m: nat, nper: nat, n: nat)
    requires nper > 0 && n == m * nper
    ensures FormSizes(n, nper) == seq(m, i => nper)
  {
    var s := seq(m, i => nper);
    RunCountExact(m, nper, n);
    SumConstant(m, nper);
    FormSizesUnique(n, nper, s);
  }

  /** An extent no larger than the cap stays one tile. */
  lemma FormSizesSmall(n: nat, nper: nat)
    requires 0 < n <= nper
    ensures FormSizes(n, nper) == [n]
  {
    DivModUnique(1, n - 1, nper);
    assert RunCount(n, nper) == 1;
    assert Sum([n]) == n;
    FormSizesUnique(n, nper, [n]);
  }

  /** m multiples of the cap need exactly m runs. */
  lemma RunCountExact(m: nat, nper: nat, n: nat)
    requires nper > 0 && n == m * nper
    ensures RunCount(n, nper) == m
  {
    DivModUnique(m, nper - 1, nper);
  }

  /** m copies of v sum to m * v. */
  lemma {:induction false} SumConstant(m: nat, v: nat)
    ensures Sum(seq(m, i => v)) == m * v
  {
    if m > 0 {
      var s := seq(m, i => v);
      assert s[1..] == seq(m - 1, i => v);
      SumConstant(m - 1, v);
      MulSucc(m - 1, v);
    }
  }

  /** Instances of the two laws: 20 indices at 5 per tile, and 7 indices
      under a cap of 10. */
  lemma FormSizesExactAndSmall()
    ensures FormSizes(20, 5) == [5, 5, 5, 5]
    ensures FormSizes(7, 10) == [7]
  {
    FormSizesExact(4, 5, 20);
    assert seq(4, i => 5) == [5, 5, 5, 5];
    FormSizesSmall(7, 10);
  }
}
